=== FILE: README.md ===
# Marketplace backend: offers, orders, reviews and profiles

This project models the business rules of a freelance-marketplace REST backend.

- **Business users** publish **offers**. Each offer has **offer details**, the purchasable tiers, keyed by their `offer_type` ("basic", "standard", "premium" by convention).
- **Customer users** place **orders** on a tier. An order takes a by-value snapshot of the tier and of its offer's title.
- Customers write **reviews** of business users, at most one per (reviewer, business user) pair.
- Every user has one **profile**. The profile carries the user type (business or customer) and the public contact data.

The database is a `Store` class (`store.dfy`, module `Marketplace`). It holds one map per table (users, profiles, offers, details, orders, reviews) keyed by row id, and one next-id counter per table. Its `Valid()` invariant covers:

- referential integrity, including what the cascades guarantee;
- fresh ids;
- the status vocabulary of orders;
- the uniqueness rules (profile emails, review pairs).

Each endpoint is a method or function of `Store`. It checks the request in the order the view does and returns the first failure as an `Error`: 401, 403, 404, 400 with the error keys, or 500. Otherwise it writes the tables and returns the result. The request rules that touch no table live in their own modules, one per concern:

| module | file | concern |
|---|---|---|
| `Records` | records.dfy | table rows, column defaults, errors |
| `Text` | text.dfy | character classes, `int()` on query parameters |
| `Registration` | registration.dfy | registration field checks and password rules |
| `OfferRules` | offer_rules.dfy | offer field checks and `details` validation |
| `DetailUpsert` | detail_upsert.dfy | the type-keyed writes to the detail table, and the loops that perform them |
| `OfferView` | offer_view.dfy | offer output: aggregates, detail links, user details |
| `OfferQuery` | offer_query.dfy | offer list filters and ordering |
| `OrderRules` | order_rules.dfy | order snapshot, status, permissions, counts |
| `ReviewRules` | review_rules.dfy | review permissions, key filter, pair rule, list filters |
| `ProfileRules` | profile_rules.dfy | profile edit rights, validation, edit effect, type lists |

Prices are integer cents. Timestamps are an integer `now` passed in by the caller. A request's optional keys are `Field` values: `Absent`, or `Given(v)`.

Where the code and its written description disagree, the model follows the code:

- **Offer creation validates before it checks the caller.** The view admits anyone, so the serializer's validation runs before `perform_create`'s login and role checks. A malformed body from an anonymous caller is therefore a 400, not a 401.
- **An empty or missing `details` list is accepted on POST and PUT.** `validate` returns early, so a POST may create an offer with no tiers. The three-tier check is a subset test, so duplicate and extra tiers pass.
- **Offer deletion checks no ownership.** Any business user may delete any offer.
- **The order create path runs in this order:** the permission class's check, then the serializer's `offer_detail_id` check, then a catch-all around the save. An unknown tier id is therefore a 500. `perform_create`'s customer-only check is never reached, so a staff user with a business profile can place orders.
- **A status update requires a business profile, on any order the caller is a party to.** It is not restricted to the order's business user. The order permission class's object check plays no part here: the action is only guarded by authentication.
- **A profile email already taken fails registration with a 500.** The email is unique on the profile table but checked only against the user table, so the profile insert fails after the user row is written, and the user row stays.

## Model

| member | source | states |
|---|---|---|
| Records.NewProfile | auth_app/models.py:12-20 | a new profile has name, email and type as given, no file, empty location, tel and description, and working hours "8 - 16" |
| Records.DefaultDetail | offers_app/models.py:27-32 | a detail row built with no columns has tier "basic", no features and is linked to its offer |
| Text.AnyChar | auth_app/api/serializers.py:68-73 | `any(p(ch) for ch in s)` holds iff some position of the string satisfies the predicate |
| Text.ParseInt | offers_app/api/views.py:57-61 | `int()` succeeds iff the text is digits with an optional sign; a digit string parses to the number it spells, a "-" before it to its negation and a "+" before it to the number itself |
| Text.IntToString | reviews_app/models.py:12 | the decimal text of an integer, as the description field makes of a number: digits, after a "-" when negative |
| Text.IntToStringRoundTrip | reviews_app/models.py:11-12 | reading back the text of an integer gives the integer |
| Text.ReadParam | offers_app/api/views.py:54-59 | a query parameter is unset iff missing or empty, malformed iff non-empty and not an integer, otherwise the integer `int()` gives |
| Registration.CheckPassword | auth_app/api/serializers.py:61-75 | the first failing rule is reported: mismatch, then length under 8, then no digit, then no lowercase, then no uppercase letter, each iff the earlier rules pass and it fails; the password is accepted iff it matches, has 8 characters and a digit, a lowercase and an uppercase letter |
| Registration.ParseUserType | auth_app/api/serializers.py:59 | the type defaults to customer; a given type is accepted iff it is "business" or "customer", and keeps its name |
| Registration.FieldErrors | auth_app/api/serializers.py:49-59 | a key is reported iff its field validator fails: username empty, over 150 or taken; email empty or taken; password under 6; type unknown |
| Registration.ValidateRegistration | auth_app/api/serializers.py:49-75 | field errors are reported before the cross-field rules; a mismatch is reported under `repeated_password` and every other password rule under `password`; success iff no field error and the password is accepted, yielding the chosen type |
| Registration.SevenCharactersRejectedAfterFieldCheck | auth_app/api/serializers.py:57-67 | a 7-character password passes the field check and is rejected by the 8-character rule |
| Registration.DigitReportedFirst | auth_app/api/serializers.py:68-73 | a long enough password without a digit is reported as lacking a digit, whatever else it lacks |
| OfferRules.KeyOf | offers_app/api/serializers.py:118 | a missing `offer_type` key reads as None, like an explicit null |
| OfferRules.FirstUntyped | offers_app/api/serializers.py:112-114 | the first entry without an `offer_type` key; every earlier entry has one |
| OfferRules.ValidateDetails | offers_app/api/serializers.py:106-124 | an empty or missing list passes; any entry without `offer_type` fails for every method; POST and PUT pass only if the three tiers are covered; other methods pass iff every entry has the key; failures are reported under `details` |
| OfferRules.DuplicatesAndExtrasAccepted | offers_app/api/serializers.py:116-122 | a POST with a duplicated tier and an extra tier is accepted |
| OfferRules.SingleTierOnlyOnPatch | offers_app/api/serializers.py:116-122 | a single tier passes on PATCH and fails on PUT and POST |
| OfferRules.OfferFieldErrors | offers_app/models.py:11-13 | title and description are reported iff given blank or over 255 characters |
| OfferRules.NewOffer | offers_app/models.py:10-15 | a new offer belongs to its creator and has both timestamps set to now; each of title, description and image is the given value when given and the default (no image) otherwise |
| OfferRules.ApplyOfferInput | offers_app/api/serializers.py:162-164 | each of title, description and image is the given value when given and the stored one otherwise; the owner and creation time stay; `updated_at` is stamped |
| OfferRules.NewOfferIsDefaultsThenUpdate | offers_app/api/serializers.py:141-162 | creating an offer with columns equals creating it with the defaults and then writing the columns; writing the same columns again changes only `updated_at` |
| DetailUpsert.Overwrite | offers_app/api/serializers.py:173-175 | writing an entry onto a row keeps the row's offer; each of the six columns (tier, title, revisions, delivery time, price, features) takes the entry's value when the entry gives it and keeps the row's otherwise |
| DetailUpsert.NewDetail | offers_app/api/serializers.py:177 | a created row is linked to its offer |
| DetailUpsert.NewDetailDefaults | offers_app/models.py:27-32 | every column an entry omits takes its declared default |
| DetailUpsert.OverwriteMerge | offers_app/api/serializers.py:173-175 | two successive writes equal one write of their merge |
| DetailUpsert.OverwriteIdempotent | offers_app/api/serializers.py:173-175 | writing the same entry twice equals writing it once |
| DetailUpsert.FindDetail | offers_app/api/serializers.py:167 | the tier index finds the offer's row with that tier of highest id, or none when the offer has no such row; this is the row the dict keeps when rows are enumerated by ascending id |
| DetailUpsert.FindDetailSameTiers | offers_app/api/serializers.py:167 | the index depends only on each row's offer and tier |
| DetailUpsert.BulkCreate | offers_app/api/serializers.py:144-145 | the bulk insert keeps every existing row id |
| DetailUpsert.BulkCreateRows | offers_app/api/serializers.py:144-145 | exactly one new row per entry, in order, each linked to the offer and built from its entry; existing rows are untouched |
| DetailUpsert.CreateRows | offers_app/api/serializers.py:144-145 | the rows built one at a time are the bulk insert of the entries, and the next id advances by their number |
| DetailUpsert.UpsertStep | offers_app/api/serializers.py:169-177 | one iteration never removes a row and never lowers the next id |
| DetailUpsert.Upsert | offers_app/api/serializers.py:166-177 | the upsert never deletes a row and never lowers the next id |
| DetailUpsert.UpsertPrefixStep | offers_app/api/serializers.py:169-177 | one more entry of the upsert is one step on the table the earlier entries left |
| DetailUpsert.UpsertRows | offers_app/api/serializers.py:166-177 | the loop's table and next id are the upsert of the entries against the index built from the table before the loop |
| DetailUpsert.UpsertShape | offers_app/api/serializers.py:166-177 | afterwards the table holds the old rows plus new rows only at fresh ids, and rows of other offers are unchanged |
| DetailUpsert.UpsertAt | offers_app/api/serializers.py:169-175 | an existing row keeps its id and ends up overwritten by exactly the entries of its tier, in order |
| DetailUpsert.MergeForUntargeted | offers_app/api/serializers.py:171 | a row whose tier no entry submits is left as it was |
| DetailUpsert.MergeForKeepsTier | offers_app/api/serializers.py:170-175 | the writes to a row never change its tier |
| DetailUpsert.UpsertAllMatched | offers_app/api/serializers.py:171-177 | when every submitted tier exists, nothing is created |
| DetailUpsert.UpsertSameTargets | offers_app/api/serializers.py:167-177 | two tier indexes that agree on every entry drive the same writes |
| DetailUpsert.ViewApply | offers_app/api/views.py:100-112 | the view loop never adds or removes a row |
| DetailUpsert.MatchedPrefix | offers_app/api/views.py:104-112 | the leading entries whose tier the offer has, ending at the first that it lacks |
| DetailUpsert.ViewApplyStep | offers_app/api/views.py:104-112 | one more entry of the view loop overwrites the row of its tier, or raises and writes nothing |
| DetailUpsert.ViewRows | offers_app/api/views.py:102-112 | the loop's table and flag are the view loop's writes and whether every submitted tier was found |
| DetailUpsert.ViewApplyCommitsPrefix | offers_app/api/views.py:104-112 | the view loop commits exactly the entries before the first unknown tier and reports whether it reached the end |
| DetailUpsert.ViewApplyStops | offers_app/api/views.py:111-112 | once an entry names an unknown tier, later entries are never written |
| DetailUpsert.SecondPassIsNoOp | offers_app/api/views.py:100-116 | after the view loop wrote every entry, the serializer's upsert of the same entries changes nothing |
| DetailUpsert.MatchedPassKeepsTargets | offers_app/api/serializers.py:166-175 | a pass in which every entry finds its row keeps the ids, parents and tiers, so the index rebuilt from its result picks the same rows |
| DetailUpsert.MatchedPassIdempotent | offers_app/api/serializers.py:166-177 | repeating such a pass changes nothing |
| OfferView.DetailIds | offers_app/api/serializers.py:194 | the offer's rows, each once, in ascending id (the enumeration order the model assumes for the unordered `.all()`) |
| OfferView.MinOrZero | offers_app/api/serializers.py:224-225 | the least element, or 0 for none |
| OfferView.Prices | offers_app/api/serializers.py:224 | the prices of the listed rows |
| OfferView.DeliveryTimes | offers_app/api/serializers.py:237 | the non-null delivery times of the listed rows |
| OfferView.MinPrice | offers_app/api/serializers.py:224-225 | `min_price` is at most every tier price, is one of them when there is a tier, and is 0 when there is none |
| OfferView.MinDeliveryTime | offers_app/api/serializers.py:237-238 | `min_delivery_time` is at most every non-null delivery time, is one of them when there is one, and is 0 when there is none |
| OfferView.DetailUrl | offers_app/api/serializers.py:43-44 | a detail's URL starts with the detail route without `/api` and ends with a slash |
| OfferView.DetailUrlNamesDetail | offers_app/api/serializers.py:43-44 | the detail id can be read back from its URL |
| OfferView.GetDetails | offers_app/api/serializers.py:193-196 | full rows, in order, iff the request is a POST or PUT; otherwise id and URL per row |
| OfferView.Represent | offers_app/api/serializers.py:70-91 | id, owner, title, image, description and both timestamps are the offer's; `details` is the view of the offer's rows in ascending id, full iff POST or PUT; `user_details` (the owner's names) is present iff there is a request and the action is "list"; the minima are the aggregates |
| OfferQuery.Matching | offers_app/api/views.py:54-62 | an offer is kept iff it passes every given filter, each at most once |
| OfferQuery.Insert | offers_app/models.py:17-18 | inserting into a newest-first list keeps it newest first, one longer, headed by the element or the old head |
| OfferQuery.InsertPermutes | offers_app/models.py:17-18 | inserting adds exactly the element and loses none |
| OfferQuery.SortNewestFirst | offers_app/models.py:17-18 | the result is newest first and a permutation of the input |
| OfferQuery.ListOffers | offers_app/api/views.py:34-62 | a malformed `creator_id` is a 500 and a malformed `max_delivery_time` a 400; otherwise each offer with the creator and a tier within the bound appears once, newest first |
| OrderRules.ValidateStatus | orders_app/api/serializers.py:115-129 | a status is accepted iff it is in_progress, completed or cancelled, and is returned unchanged |
| OrderRules.ApplyStatus | orders_app/api/serializers.py:141-143 | only status and `updated_at` change; with no status given the old one is kept |
| OrderRules.PlaceOrder | orders_app/api/serializers.py:53-71 | the order copies revisions, delivery time, price, features and tier from the detail and the title from its offer; the customer is the caller and the business user the offer's owner; the status is in_progress; a NULL delivery time or tier fails with a 500 |
| OrderRules.RepresentCreated | orders_app/api/serializers.py:84-97 | the creation body carries the new id and both user ids |
| OrderRules.RepresentCreatedOmitsOnlyDetail | orders_app/api/serializers.py:84-97 | two orders get the same creation body iff they differ at most in the detail reference |
| OrderRules.OrderWritable | orders_app/api/serializers.py:14-21 | none of the read-only keys (both users, the six snapshot columns) can be written; every other key passes unchanged |
| OrderRules.StaffWithoutProfileDenied | orders_app/api/permissions.py:20-25 | a staff user without a profile is refused |
| OrderRules.OrderObjectPermissionCases | orders_app/api/permissions.py:40-43 | safe methods are always allowed; otherwise allowed iff the caller is the order's customer or staff, so the business user alone is refused |
| OrderRules.OrderGuardFor | orders_app/api/views.py:43-45 | create is guarded by the customer-or-admin class; every other action by authentication |
| OrderRules.StaffBusinessPassesCreateGuard | orders_app/api/views.py:82-84 | a staff user with a business profile passes the create guard although the customer-only check would refuse them |
| OrderRules.VisibleOrders | orders_app/api/views.py:31-33 | the caller's orders are exactly those where they are customer or business user |
| OrderRules.WithStatus | orders_app/api/views.py:179 | exactly the business user's orders with the status |
| OrderRules.CountWithStatus | orders_app/api/views.py:179 | the count is at most the business user's order total and is 0 iff none of their orders has the status |
| OrderRules.CountsPartitionOrders | orders_app/api/serializers.py:126-128 | when every status is one of the three accepted values, the three counts add up to the total |
| ReviewRules.ReviewGuardFor | reviews_app/api/views.py:30-34 | create uses the customer-or-admin class; update, partial update and destroy the reviewer-or-admin class; anything else authentication |
| ReviewRules.StripPatch | reviews_app/api/views.py:45-47 | the body keeps exactly its `rating` and `description` keys, with their values |
| ReviewRules.StripPatchProperties | reviews_app/api/views.py:45-47 | stripping is idempotent, and neither `business_user` nor `reviewer` survives it |
| ReviewRules.AddKeepsPairsUnique | reviews_app/api/views.py:59-62 | inserting a review for a pair that has none keeps the pairs unique |
| ReviewRules.RatingValue | reviews_app/models.py:11 | the rating field takes a number as it is and reads a text as `int()` does |
| ReviewRules.DescriptionValue | reviews_app/models.py:12 | the description field accepts any number, as its decimal text that reads back as the number, and any non-empty text unchanged; only the empty text is refused |
| ReviewRules.RatingOfNumberText | reviews_app/models.py:11 | a number and its decimal text are the same rating |
| ReviewRules.ReviewFieldErrors | reviews_app/api/serializers.py:15-19 | a key is reported iff it is missing or invalid: the business user must exist, a text rating must read as an integer, the description must not be the empty text (a number is accepted) |
| ReviewRules.PatchErrors | reviews_app/models.py:11-12 | only the keys present are checked: a rating is reported iff it is a text that does not read as an integer, a description iff it is the empty text |
| ReviewRules.PatchErrorsAgreeWithCreation | reviews_app/api/views.py:45-48 | a partial body carrying both keys is refused under exactly the keys a creation with the same values and an existing business user is refused under |
| ReviewRules.ApplyReviewPatch | reviews_app/api/views.py:48 | a partial update writes only the given rating and description, as converted: a number as it is, a text rating as the integer it reads as, a number description as text that reads back as that number; it stamps `updated_at`; reviewer and business user never change |
| ReviewRules.PatchKeepsPairsUnique | reviews_app/models.py:9-10 | rewriting a review without changing its pair keeps the pairs unique |
| ReviewRules.MatchingReviews | reviews_app/api/views.py:71-79 | a malformed id is a 500; otherwise a review is listed iff it matches every given filter |
| ReviewRules.MatchingReviewsConjunctive | reviews_app/api/views.py:71-79 | with no filter every review is listed; with both, the intersection of each alone |
| ProfileRules.CanEditProfileCases | auth_app/api/views.py:25-27 | GET is open to all; PATCH and PUT are allowed to staff, and otherwise iff the caller owns the profile |
| ProfileRules.ProfileFieldErrors | auth_app/models.py:12-19 | a key is reported iff its value breaks its column: blank or long name, long location, tel or working hours, unknown type, a non-blank email that is too long or that another profile holds (a blank email skips the email validators) |
| ProfileRules.BlankEmailPassesValidation | auth_app/models.py:19 | a blank email is never a field error, whoever holds it; a non-blank email another profile holds always is |
| ProfileRules.AddKeepsEmailsUnique | auth_app/models.py:19 | a new profile whose email no profile holds keeps profile emails unique |
| ProfileRules.ApplyNames | auth_app/api/serializers.py:37-39 | only given first and last names are copied to the user; username, email and staff flag stay |
| ProfileRules.NewFile | auth_app/api/serializers.py:42-43 | the stored file changes only to a given non-empty upload |
| ProfileRules.ApplyProfilePatch | auth_app/api/serializers.py:42-45 | each of name, location, tel, description, working hours and email is the given value when given and the stored one otherwise; a given type is written under its name; the file per `NewFile`; the creation time stays; an empty patch changes nothing |
| ProfileRules.ApplyProfilePatchIdempotent | auth_app/api/serializers.py:32-45 | saving the same patch twice leaves the profile as saving it once |
| ProfileRules.EditKeepsEmailsUnique | auth_app/models.py:19 | an edit that passed validation and does not give a blank email another profile holds keeps profile emails unique |
| ProfileRules.FileUrl | auth_app/api/serializers.py:9-13 | a URL iff there is a file and a request, built from the request's host and the file path |
| ProfileRules.ProfilesOfType | auth_app/api/views.py:36-45 | exactly the profiles of the type |
| ProfileRules.ProfileListsPartition | auth_app/models.py:6-9 | every profile is in exactly one of the business and customer lists |
| Marketplace.OffersOf | offers_app/models.py:10 | the offers the user created |
| Marketplace.OffersKept | offers_app/models.py:10 | the offers left, unchanged, once their creator is deleted |
| Marketplace.DetailsKept | offers_app/models.py:26 | the tiers left, unchanged, once their offers are deleted |
| Marketplace.OrdersKept | orders_app/models.py:10-12 | the orders left, unchanged, once their tier, customer or business user is deleted |
| Marketplace.ReviewsKept | reviews_app/models.py:9-10 | the reviews left, unchanged, once their reviewer or business user is deleted |
| Marketplace.DeleteKeepsConsistent | auth_app/models.py:11 | deleting a user with all its cascades keeps every table consistent |
| Marketplace.BulkCreateKeepsConsistent | offers_app/api/serializers.py:144-145 | the bulk insert of tiers for an existing offer keeps every table consistent |
| Marketplace.UpsertKeepsConsistent | offers_app/api/serializers.py:166-177 | the serializer's upsert for an existing offer keeps every table consistent |
| Marketplace.ViewApplyKeepsConsistent | offers_app/api/views.py:102-112 | the view loop keeps every table consistent |
| Marketplace.Store.ProfileOf | orders_app/api/permissions.py:20 | the caller's profile, when logged in and they have one |
| Marketplace.Store.CreateGate | offers_app/api/views.py:146-151 | 401 when anonymous; otherwise passes iff the caller has a business profile, else 403 |
| Marketplace.Store.EditGate | offers_app/api/views.py:88-98 | in order: 401 when anonymous, 404 for no such offer, 403 when not the owner; passes iff owner with a business profile |
| Marketplace.Store.DestroyGate | offers_app/api/views.py:190-197 | 401 when anonymous, 403 without a business profile, then 404; passes iff business profile and the offer exists, whoever owns it |
| Marketplace.Store.CreateOffer | offers_app/api/views.py:138-151 | field errors, then `details` validation, then the caller check, each leaving the tables unchanged; then the offer is inserted for the caller and one tier per entry is bulk-inserted; an explicit null `details` leaves the offer saved and fails with a 500 |
| Marketplace.Store.InsertDetails | offers_app/api/serializers.py:144-145 | the detail table becomes the bulk insert of the entries, and the next id advances by their number |
| Marketplace.Store.UpsertDetails | offers_app/api/serializers.py:166-177 | the detail table and next id become the upsert of the entries against the index built before the loop |
| Marketplace.Store.WriteMatchedDetails | offers_app/api/views.py:102-112 | the detail table becomes the view loop's writes, and the result says whether every tier was found |
| Marketplace.Store.UpdateOffer | offers_app/api/views.py:74-121 | no detail row is ever created, and a missing, null or empty `details` changes no detail; the checks fail with the table unchanged; after them the detail table holds exactly the view loop's writes, whatever happens next; an unknown tier, field errors or failed `details` validation leave the offer unchanged; success iff none of these, and then only the given offer columns change |
| Marketplace.Store.SaveOffer | offers_app/api/views.py:114-116 | after the view loop: field errors, then failed `details` validation, each leaving the offer unchanged; success iff neither, writing the given columns; the serializer's second pass leaves the detail table as the view loop left it |
| Marketplace.Store.DestroyOffer | offers_app/api/views.py:182-199 | the result is the delete gate's; on success the offer, its tiers and the orders placed on them are removed, and nothing else changes |
| Marketplace.Store.RetrieveOffer | offers_app/api/views.py:124-135 | 401 when anonymous, 404 for no such offer; the body has links for details and no user details |
| Marketplace.Store.RetrieveDetail | offers_app/api/views.py:210-229 | 401 when anonymous, 400 unless the id is all digits, 404 for no such row, else the full row of that id |
| Marketplace.Store.Register | auth_app/api/serializers.py:77-89 | a rejected request changes nothing; otherwise the user row is inserted, and the profile gets the chosen type, the username as name and the email, unless another profile holds that email (500, user row kept) |
| Marketplace.Store.AddAccount | auth_app/api/serializers.py:80-87 | the user row is always inserted at the next id; the profile (chosen type, username as name, the email) only when no profile holds that email, otherwise a 500 with the user row kept |
| Marketplace.Store.RetrieveProfile | auth_app/api/views.py:18-29 | 401 when anonymous, 404 when the user has no profile, otherwise the profile, whoever asks |
| Marketplace.Store.UpdateProfile | auth_app/api/views.py:18-29 | in order 401, 404, 403 (neither owner nor staff) and 400, all unchanged; then a blank email another profile holds is a 500 with the names written to the user and the profile unchanged; success iff none of these, writing the names to the user and the other columns to the profile |
| Marketplace.Store.SaveProfileEdit | auth_app/api/serializers.py:31-45 | the names always go to the user row; then it fails with a 500 and the profile unchanged iff the patch gives a blank email another profile holds, and otherwise writes the other given columns to the profile row; profile emails stay unique |
| Marketplace.Store.ListProfiles | auth_app/api/views.py:32-45 | 401 when anonymous, otherwise exactly the profiles of the type |
| Marketplace.Store.CreateOrder | orders_app/api/views.py:88-110 | in order: the permission class's refusal (401 or 403), a missing `offer_detail_id` (400), an unknown tier or NULL snapshot column (500), all leaving orders unchanged; success iff none, inserting the snapshot order and returning its body |
| Marketplace.Store.UpdateOrderStatus | orders_app/api/views.py:113-143 | in order 401, 404 for an order the caller is no party to, 403 without a business profile, 400 for a status outside the three, all unchanged; success iff none, changing only that order's status and `updated_at` |
| Marketplace.Store.ListOrders | orders_app/api/views.py:24-33 | 401 when anonymous, otherwise exactly the orders where the caller is a party |
| Marketplace.Store.CountOrders | orders_app/api/views.py:166-202 | 401 when anonymous, 404 for an unknown user, otherwise the number of that user's orders with the status, 0 when none has it |
| Marketplace.Store.CountsAddUp | orders_app/api/views.py:178-202 | under the store invariant that every order status is one of the three accepted ones (kept by every modelled write), the in-progress and completed counts with the cancelled one make up the business user's order total |
| Marketplace.Store.CreateReview | reviews_app/api/views.py:50-62 | in order: permission refusal, field errors, an anonymous caller (500), an existing review of the pair (400 under `detail`), all unchanged; success iff none, inserting the review with the caller as reviewer |
| Marketplace.Store.PartialUpdateReview | reviews_app/api/views.py:36-48 | in order: permission refusal, 404, object permission refusal, errors in the stripped body, all unchanged; success iff none, writing only rating and description |
| Marketplace.Store.ListReviews | reviews_app/api/views.py:64-79 | 401 when anonymous, otherwise the reviews matching every given filter |
| Marketplace.Store.DeleteUser | auth_app/models.py:11 | the user, their profile, their offers with their tiers, every order on a removed tier or with them as a party, and every review by or of them are removed, and the tables stay consistent |

## Left out

- The second, unrouted implementation of the same apps under `apps/` is not part of this model.
- Token issuance, login and password hashing are external authentication calls and are not modelled. The caller is a parameter: `Anonymous`, or `Authenticated(id)` for an existing user. An authentication failure is taken to be a 401, as token authentication reports it.
- Media files and URL reversing are not modelled. A stored file path and a request's host are opaque strings. A detail's URL is its route with the id spelled out.
- Floating point is not modelled. The `min_price` query parameter, the float conversion of `min_price` in the output, the float rating and the rating-average statistics endpoint are left out. Prices are integer cents, and ratings are integers.
- The framework's routing, pagination, filter backends (`filterset_fields`, search, `ordering` parameters) and the offer list's plumbing are configuration and are not modelled. The list query models the two filters `get_queryset` applies and the default ordering. Ties in `updated_at` are left in an unspecified order.
- Framework-default actions the code does not override are not modelled: order PUT and DELETE, review PUT and DELETE, and profile PUT. Profile PUT would also require the `user` field. Order PUT writes `status` through OrderSerializer, which does not check it, so in the source it can store a status outside the three accepted ones; the model's store invariant, and with it `Marketplace.Store.CountsAddUp`, holds only because that action is left out. The review permission classes are not part of this model, so their verdicts are parameters of the review methods.
- The store serves one request at a time. Transactions and concurrent requests are not modelled.
- Marketplace.Store.UpdateOffer: the query parameters `get_object` re-applies inside `perform_update` are not modelled. The offer is looked up by id only.
- Marketplace.Store.DestroyOffer: the query parameters that `get_object` re-applies inside the framework's `destroy` are not modelled. The offer is looked up by id only. In the source, a non-integer `creator_id` is a 500 and a non-integer `max_delivery_time` a 400. An offer the filters exclude is a 404.
- Marketplace.Store.PartialUpdateReview: the `business_user_id` and `reviewer_id` query parameters that `get_object` re-applies inside the framework's `partial_update` are not modelled. The review is looked up by id only. In the source, a non-integer id is a 500 and a review the filters exclude is a 404.
- DetailUpsert.Overwrite: a detail entry's keys outside the six modelled columns are not modelled, nor are values of the wrong type or nulls for non-null columns. In the view loop each key is set as an attribute of the row:
  - an unknown key is ignored by the save;
  - `offer_id` moves the row to another offer;
  - `id` makes the save write the row of that id, or insert a new one, and leaves the original row as it was.
- Text.ParseInt: `int()`'s acceptance of surrounding whitespace, underscores and non-ASCII decimal digits is not modelled.
- Registration.CheckPassword: `islower`, `isupper` and `isdigit` on non-ASCII characters are not modelled; only ASCII letters and digits count.
- Marketplace.Store.RetrieveDetail: only ASCII digits pass the id check. In the source, `isdigit` also accepts other Unicode digits: "²" then fails `int()` in the lookup (a 500 rather than the model's 400), and "٣" reads as 3 and looks up that row.
- Registration.FieldErrors: the email format check and the username character rules of the user model are not modelled.
- OfferRules.OfferFieldErrors: the database's `max_digits` on prices is not modelled, nor the maximum lengths the database, rather than the serializer, enforces (such as the 50 characters of a detail's `offer_type`).
- Text values of a request are taken after the framework's character fields have trimmed leading and trailing whitespace. A value that is blank only after trimming is therefore modelled as the empty text, and a padded value as the trimmed one. This holds for the members below.
- OfferRules.OfferFieldErrors: title and description are the trimmed values; " " is blank here as in the source only because of that trimming.
- ReviewRules.ReviewFieldErrors: the description is the trimmed value. A float rating, a float description, the rating's limit of 1000 characters on text, and `float()`'s acceptance of fractions, exponents, "nan" and "inf" are not modelled, because ratings are integers here. A boolean in either field is not modelled.
- ReviewRules.PatchErrors: as for `ReviewRules.ReviewFieldErrors`.
- Registration.FieldErrors: username, email and passwords are the trimmed values (the framework trims passwords too).
- JSON null is not modelled for `rating` and `description` in a review PATCH, for an order's `status`, for the registration `type`, for an offer's `title` and `description`, nor for the profile's names and its text columns other than the email. Each is a 400 in the source, since none of these fields allows null.
- ProfileRules.ProfileFieldErrors: the email format check of the email column is not modelled, and the text columns are the trimmed values. A `user` key in a profile PATCH body is not modelled: the serializer accepts it as writable and the save then fails.
- OrderRules.ValidateStatus: the status is the trimmed value, so the source also accepts a status padded with whitespace.
- DetailUpsert.FindDetail: `instance.offer_details.all()` has no ordering, so which of two rows of the same tier the dict keeps depends on the database's enumeration order. The model assumes ascending id and keeps the row of highest id.
- OfferView.DetailIds: the rows of an offer are listed in ascending id. `.all()` guarantees no order, and the database may list them otherwise.
- Marketplace.Store.AddAccount: the user row stores the email as given. `create_user` lower-cases the email's domain part before storing it, while the profile keeps the email as given; that normalisation is not modelled.
- Marketplace.Store.Register: the user row it writes through `Marketplace.Store.AddAccount` keeps the email as given, without `create_user`'s lower-casing of the domain part.
- Marketplace.Store.RetrieveOffer: the serializer context is that of the retrieve action; the list action's context is covered by `OfferView.Represent`.

=== FILE: detail_upsert.dfy ===
/** The type-keyed writes to the OfferDetails table: the serializer's upsert
    (overwrite a matching tier, create an unknown one, never delete) and the
    view's update loop (overwrite a matching tier, stop at the first unknown one).
    Both look tiers up in an index built once, before the loop, from the table
    as it was (`snap`); `bound` exceeds every id in it. */
module DetailUpsert {
  import opened Wrappers
  import opened Records
  import opened OfferRules

  type Table = map<nat, OfferDetail>

  /** Every id in use is below `next`, the next id the table will hand out. */
  predicate IdsBelow(m: Table, next: nat) {
    forall k :: k in m ==> k < next
  }

  /** `setattr(detail, attr, value)` for every key the entry gives. */
  function Overwrite(d: OfferDetail, e: DetailInput): (r: OfferDetail)
    ensures r.offer == d.offer
    ensures e.offerType.Given? ==> r.offerType == e.offerType.value
    ensures e.offerType.Absent? ==> r.offerType == d.offerType
    ensures e.title.Given? ==> r.title == e.title.value
    ensures e.title.Absent? ==> r.title == d.title
    ensures e.revisions.Given? ==> r.revisions == e.revisions.value
    ensures e.revisions.Absent? ==> r.revisions == d.revisions
    ensures e.deliveryTime.Given? ==> r.deliveryTime == e.deliveryTime.value
    ensures e.deliveryTime.Absent? ==> r.deliveryTime == d.deliveryTime
    ensures e.price.Given? ==> r.price == e.price.value
    ensures e.price.Absent? ==> r.price == d.price
    ensures e.features.Given? ==> r.features == e.features.value
    ensures e.features.Absent? ==> r.features == d.features
  {
    d.(offerType := e.offerType.Or(d.offerType), title := e.title.Or(d.title),
       revisions := e.revisions.Or(d.revisions), deliveryTime := e.deliveryTime.Or(d.deliveryTime),
       price := e.price.Or(d.price), features := e.features.Or(d.features))
  }

  /** `OfferDetails(offer=offer, **entry)`: the given columns over the declared defaults. */
  function NewDetail(offer: nat, e: DetailInput): (r: OfferDetail)
    ensures r.offer == offer
  {
    Overwrite(DefaultDetail(offer), e)
  }

  lemma NewDetailDefaults(offer: nat, e: DetailInput)
    ensures e.title.Absent? ==> NewDetail(offer, e).title == DEFAULT_DETAIL_TITLE
    ensures e.revisions.Absent? ==> NewDetail(offer, e).revisions == DEFAULT_REVISIONS
    ensures e.deliveryTime.Absent? ==> NewDetail(offer, e).deliveryTime == Some(DEFAULT_DELIVERY_DAYS)
    ensures e.price.Absent? ==> NewDetail(offer, e).price == DEFAULT_PRICE_CENTS
    ensures e.features.Absent? ==> NewDetail(offer, e).features == []
    ensures e.offerType.Absent? ==> NewDetail(offer, e).offerType == Some(DEFAULT_OFFER_TYPE)
  {
  }

  /** The entry that writes nothing. */
  const NO_CHANGE: DetailInput := DetailInput(Absent, Absent, Absent, Absent, Absent, Absent)

  /** The single entry equivalent to writing `a` and then `b`. */
  function Merge(a: DetailInput, b: DetailInput): DetailInput {
    DetailInput(
      if b.offerType.Given? then b.offerType else a.offerType,
      if b.title.Given? then b.title else a.title,
      if b.revisions.Given? then b.revisions else a.revisions,
      if b.deliveryTime.Given? then b.deliveryTime else a.deliveryTime,
      if b.price.Given? then b.price else a.price,
      if b.features.Given? then b.features else a.features)
  }

  lemma OverwriteMerge(d: OfferDetail, a: DetailInput, b: DetailInput)
    ensures Overwrite(Overwrite(d, a), b) == Overwrite(d, Merge(a, b))
  {
  }

  lemma OverwriteIdempotent(d: OfferDetail, a: DetailInput)
    ensures Overwrite(Overwrite(d, a), a) == Overwrite(d, a)
  {
  }

  // ------------------------------------------------------------ the tier index

  predicate IsTier(m: Table, k: nat, offer: nat, key: Option<string>) {
    k in m && m[k].offer == offer && m[k].offerType == key
  }

  /** `{d.offer_type: d for d in offer.offer_details.all()}[key]`: rows are
      enumerated in ascending id order, so the row with the highest id wins. */
  function FindDetail(m: Table, offer: nat, key: Option<string>, bound: nat): (r: Option<nat>)
    ensures r.Some? ==> r.value < bound && IsTier(m, r.value, offer, key)
    ensures r.Some? ==> forall j :: r.value < j < bound ==> !IsTier(m, j, offer, key)
    ensures r.None? ==> forall j :: 0 <= j < bound ==> !IsTier(m, j, offer, key)
    decreases bound
  {
    if bound == 0 then None
    else if IsTier(m, bound - 1, offer, key) then Some(bound - 1)
    else FindDetail(m, offer, key, bound - 1)
  }

  /** The index only sees each row's parent and tier. */
  lemma {:induction false} FindDetailSameTiers(m1: Table, m2: Table, offer: nat, key: Option<string>, bound: nat)
    requires m1.Keys == m2.Keys
    requires forall k :: k in m1 ==> m1[k].offer == m2[k].offer && m1[k].offerType == m2[k].offerType
    ensures FindDetail(m1, offer, key, bound) == FindDetail(m2, offer, key, bound)
  {
    if bound > 0 {
      assert IsTier(m1, bound - 1, offer, key) == IsTier(m2, bound - 1, offer, key);
      FindDetailSameTiers(m1, m2, offer, key, bound - 1);
    }
  }

  /** The row an entry is written to, if the offer has its tier. */
  function Target(snap: Table, offer: nat, bound: nat, e: DetailInput): Option<nat> {
    FindDetail(snap, offer, KeyOf(e), bound)
  }

  // ------------------------------------------------------------ serializer create

  /** The rows OfferSerializer.create bulk-inserts: one per entry, in order,
      numbered from `next`. */
  function BulkCreate(m: Table, next: nat, offer: nat, es: seq<DetailInput>): (r: Table)
    ensures m.Keys <= r.Keys
    decreases |es|
  {
    if es == [] then m
    else BulkCreate(m, next, offer, es[..|es| - 1])[next + |es| - 1 := NewDetail(offer, es[|es| - 1])]
  }

  /** The bulk insert, one row at a time. */
  method CreateRows(m: Table, next: nat, offer: nat, es: seq<DetailInput>) returns (r: Table, n: nat)
    ensures r == BulkCreate(m, next, offer, es) && n == next + |es|
  {
    r, n := m, next;
    var i := 0;
    while i < |es|
      invariant 0 <= i <= |es|
      invariant n == next + i
      invariant r == BulkCreate(m, next, offer, es[..i])
    {
      assert es[..i + 1][..i] == es[..i];
      r := r[n := NewDetail(offer, es[i])];
      n := n + 1;
      i := i + 1;
    }
    assert es[..i] == es;
  }

  /** Exactly one new row per entry, linked to the offer; the old rows are untouched. */
  lemma {:induction false} BulkCreateRows(m: Table, next: nat, offer: nat, es: seq<DetailInput>)
    requires IdsBelow(m, next)
    ensures var r := BulkCreate(m, next, offer, es);
      && IdsBelow(r, next + |es|)
      && (forall k :: k in r <==> k in m || next <= k < next + |es|)
      && (forall k :: k in m ==> r[k] == m[k])
      && (forall j :: 0 <= j < |es| ==> r[next + j] == NewDetail(offer, es[j]))
    decreases |es|
  {
    if es != [] {
      var init := es[..|es| - 1];
      BulkCreateRows(m, next, offer, init);
      forall j | 0 <= j < |es| - 1
        ensures init[j] == es[j]
      {
      }
    }
  }

  // ------------------------------------------------------------ serializer upsert

  /** One iteration of OfferSerializer.update's loop. */
  function UpsertStep(snap: Table, offer: nat, bound: nat, m: Table, next: nat, e: DetailInput): (r: (Table, nat))
    requires snap.Keys <= m.Keys
    ensures m.Keys <= r.0.Keys && next <= r.1
  {
    match Target(snap, offer, bound, e)
    case Some(id) => (m[id := Overwrite(m[id], e)], next)
    case None => (m[next := NewDetail(offer, e)], next + 1)
  }

  /** The table and next id after OfferSerializer.update's loop has processed `es`. */
  function Upsert(snap: Table, offer: nat, bound: nat, m: Table, next: nat, es: seq<DetailInput>): (r: (Table, nat))
    requires snap.Keys <= m.Keys
    ensures m.Keys <= r.0.Keys && next <= r.1
    decreases |es|
  {
    if es == [] then (m, next)
    else
      var p := Upsert(snap, offer, bound, m, next, es[..|es| - 1]);
      UpsertStep(snap, offer, bound, p.0, p.1, es[|es| - 1])
  }

  /** What the upsert leaves in the table: the old rows (possibly overwritten) and
      the rows it created, numbered from `next` on and all belonging to `offer`. */
  lemma {:induction false} UpsertShape(snap: Table, offer: nat, bound: nat, m: Table, next: nat, es: seq<DetailInput>)
    requires snap.Keys <= m.Keys && IdsBelow(m, next)
    ensures var r := Upsert(snap, offer, bound, m, next, es);
      && IdsBelow(r.0, r.1)
      && (forall k :: k in r.0 <==> k in m || next <= k < r.1)
      && (forall k :: k in r.0 && k in m ==> r.0[k].offer == m[k].offer)
      && (forall k :: next <= k < r.1 ==> r.0[k].offer == offer)
    decreases |es|
  {
    if es != [] {
      UpsertShape(snap, offer, bound, m, next, es[..|es| - 1]);
    }
  }

  /** One more entry of the upsert: the step on the table the earlier entries left. */
  lemma UpsertPrefixStep(snap: Table, offer: nat, bound: nat, m: Table, next: nat, es: seq<DetailInput>, i: nat)
    requires snap.Keys <= m.Keys && i < |es|
    ensures var p := Upsert(snap, offer, bound, m, next, es[..i]);
      Upsert(snap, offer, bound, m, next, es[..i + 1]) == UpsertStep(snap, offer, bound, p.0, p.1, es[i])
  {
    assert es[..i + 1][..i] == es[..i];
  }

  /** The serializer's loop: the index is built once from `snap`, then each
      entry overwrites its row or creates one. */
  method UpsertRows(snap: Table, offer: nat, bound: nat, es: seq<DetailInput>) returns (r: Table, n: nat)
    ensures (r, n) == Upsert(snap, offer, bound, snap, bound, es)
  {
    r, n := snap, bound;
    var i := 0;
    while i < |es|
      invariant 0 <= i <= |es|
      invariant (r, n) == Upsert(snap, offer, bound, snap, bound, es[..i])
    {
      UpsertPrefixStep(snap, offer, bound, snap, bound, es, i);
      var target := FindDetail(snap, offer, KeyOf(es[i]), bound);
      match target {
        case Some(id) =>
          r := r[id := Overwrite(r[id], es[i])];
        case None =>
          r := r[n := NewDetail(offer, es[i])];
          n := n + 1;
      }
      i := i + 1;
    }
    assert es[..i] == es;
  }

  /** The writes the entries of `es` that target row `id` amount to, in order. */
  function MergeFor(snap: Table, offer: nat, bound: nat, es: seq<DetailInput>, id: nat): DetailInput
    decreases |es|
  {
    if es == [] then NO_CHANGE
    else
      var p := MergeFor(snap, offer, bound, es[..|es| - 1], id);
      if Target(snap, offer, bound, es[|es| - 1]) == Some(id) then Merge(p, es[|es| - 1]) else p
  }

  /** An existing row ends up overwritten, in place, by exactly the entries of its tier. */
  lemma {:induction false} UpsertAt(snap: Table, offer: nat, bound: nat, m: Table, next: nat, es: seq<DetailInput>, id: nat)
    requires snap.Keys <= m.Keys && IdsBelow(m, next) && id in m
    ensures id in Upsert(snap, offer, bound, m, next, es).0
    ensures Upsert(snap, offer, bound, m, next, es).0[id] == Overwrite(m[id], MergeFor(snap, offer, bound, es, id))
    decreases |es|
  {
    if es == [] {
      assert Overwrite(m[id], NO_CHANGE) == m[id];
    } else {
      var init := es[..|es| - 1];
      var e := es[|es| - 1];
      var p := Upsert(snap, offer, bound, m, next, init);
      UpsertAt(snap, offer, bound, m, next, init, id);
      UpsertShape(snap, offer, bound, m, next, init);
      if Target(snap, offer, bound, e) == Some(id) {
        OverwriteMerge(m[id], MergeFor(snap, offer, bound, init, id), e);
      }
    }
  }

  /** Rows whose tier no entry submits are left exactly as they were. */
  lemma {:induction false} MergeForUntargeted(snap: Table, offer: nat, bound: nat, es: seq<DetailInput>, id: nat)
    requires forall i :: 0 <= i < |es| ==> Target(snap, offer, bound, es[i]) != Some(id)
    ensures MergeFor(snap, offer, bound, es, id) == NO_CHANGE
    decreases |es|
  {
    if es != [] {
      MergeForUntargeted(snap, offer, bound, es[..|es| - 1], id);
    }
  }

  /** The merged writes to a row never change its tier. */
  lemma {:induction false} MergeForKeepsTier(snap: Table, offer: nat, bound: nat, es: seq<DetailInput>, id: nat)
    requires id in snap
    ensures var t := MergeFor(snap, offer, bound, es, id).offerType;
      t.Absent? || t == Given(snap[id].offerType)
    decreases |es|
  {
    if es != [] {
      MergeForKeepsTier(snap, offer, bound, es[..|es| - 1], id);
    }
  }

  /** When every entry's tier exists, the upsert creates nothing. */
  lemma {:induction false} UpsertAllMatched(snap: Table, offer: nat, bound: nat, m: Table, next: nat, es: seq<DetailInput>)
    requires snap.Keys <= m.Keys
    requires forall i :: 0 <= i < |es| ==> Target(snap, offer, bound, es[i]).Some?
    ensures Upsert(snap, offer, bound, m, next, es).0.Keys == m.Keys
    ensures Upsert(snap, offer, bound, m, next, es).1 == next
    decreases |es|
  {
    if es != [] {
      UpsertAllMatched(snap, offer, bound, m, next, es[..|es| - 1]);
    }
  }

  /** Two indexes that agree on every entry drive the same writes. */
  lemma {:induction false} UpsertSameTargets(snap1: Table, snap2: Table, offer: nat, bound: nat, m: Table, next: nat, es: seq<DetailInput>)
    requires snap1.Keys <= m.Keys && snap2.Keys <= m.Keys
    requires forall i :: 0 <= i < |es| ==> Target(snap1, offer, bound, es[i]) == Target(snap2, offer, bound, es[i])
    ensures Upsert(snap1, offer, bound, m, next, es) == Upsert(snap2, offer, bound, m, next, es)
    decreases |es|
  {
    if es != [] {
      UpsertSameTargets(snap1, snap2, offer, bound, m, next, es[..|es| - 1]);
    }
  }

  // ------------------------------------------------------------ view update loop

  /** The table after OfferViewset.update's loop, and whether it ran to the end
      (false: it raised on an entry whose tier the offer lacks). */
  function ViewApply(snap: Table, offer: nat, bound: nat, m: Table, es: seq<DetailInput>): (r: (Table, bool))
    requires snap.Keys <= m.Keys
    ensures r.0.Keys == m.Keys
    decreases |es|
  {
    if es == [] then (m, true)
    else
      var p := ViewApply(snap, offer, bound, m, es[..|es| - 1]);
      if !p.1 then p
      else match Target(snap, offer, bound, es[|es| - 1])
        case Some(id) => (p.0[id := Overwrite(p.0[id], es[|es| - 1])], true)
        case None => (p.0, false)
  }

  /** One more entry of the view loop, while it has not raised: the entry's
      row is overwritten, or the loop raises and writes nothing. */
  lemma ViewApplyStep(snap: Table, offer: nat, bound: nat, m: Table, es: seq<DetailInput>, i: nat)
    requires snap.Keys <= m.Keys && i < |es|
    requires ViewApply(snap, offer, bound, m, es[..i]).1
    ensures var p := ViewApply(snap, offer, bound, m, es[..i]).0;
      ViewApply(snap, offer, bound, m, es[..i + 1]) ==
        match Target(snap, offer, bound, es[i])
        case Some(id) => (p[id := Overwrite(p[id], es[i])], true)
        case None => (p, false)
  {
    assert es[..i + 1][..i] == es[..i];
  }

  /** The number of leading entries whose tier the offer has. */
  function MatchedPrefix(snap: Table, offer: nat, bound: nat, es: seq<DetailInput>): (k: nat)
    ensures k <= |es|
    ensures forall i :: 0 <= i < k ==> Target(snap, offer, bound, es[i]).Some?
    ensures k < |es| ==> Target(snap, offer, bound, es[k]).None?
    decreases |es|
  {
    if es == [] then 0
    else
      var p := MatchedPrefix(snap, offer, bound, es[..|es| - 1]);
      if p < |es| - 1 then p
      else if Target(snap, offer, bound, es[|es| - 1]).Some? then |es|
      else |es| - 1
  }

  /** The view loop commits exactly the entries before the first unknown tier,
      each as an in-place overwrite; it succeeds iff there is no unknown tier. */
  lemma {:induction false} ViewApplyCommitsPrefix(snap: Table, offer: nat, bound: nat, m: Table, next: nat, es: seq<DetailInput>)
    requires snap.Keys <= m.Keys
    ensures var k := MatchedPrefix(snap, offer, bound, es);
      && ViewApply(snap, offer, bound, m, es) == (Upsert(snap, offer, bound, m, next, es[..k]).0, k == |es|)
      && Upsert(snap, offer, bound, m, next, es[..k]).1 == next
    decreases |es|
  {
    var k := MatchedPrefix(snap, offer, bound, es);
    if es == [] {
      assert es[..k] == [];
    } else {
      var init := es[..|es| - 1];
      ViewApplyCommitsPrefix(snap, offer, bound, m, next, init);
      var k' := MatchedPrefix(snap, offer, bound, init);
      if k' < |init| {
        assert k == k' && es[..k] == init[..k'];
      } else if k == |es| {
        assert es[..k] == es && es[..k][..|es| - 1] == init[..k'];
      } else {
        assert es[..k] == init[..k'];
      }
    }
  }

  /** The view's loop: the index is built once from `snap`; each entry is
      written onto its row until one names a tier the offer lacks. */
  method ViewRows(snap: Table, offer: nat, bound: nat, es: seq<DetailInput>) returns (r: Table, matched: bool)
    ensures (r, matched) == ViewApply(snap, offer, bound, snap, es)
  {
    r, matched := snap, true;
    var i := 0;
    while i < |es|
      invariant 0 <= i <= |es|
      invariant ViewApply(snap, offer, bound, snap, es[..i]) == (r, true)
      invariant r.Keys == snap.Keys
    {
      ViewApplyStep(snap, offer, bound, snap, es, i);
      var target := FindDetail(snap, offer, KeyOf(es[i]), bound);
      match target {
        case None =>
          ViewApplyStops(snap, offer, bound, snap, es, i + 1);
          return r, false;
        case Some(id) =>
          r := r[id := Overwrite(r[id], es[i])];
      }
      i := i + 1;
    }
    assert es[..i] == es;
  }

  /** Once the view loop has raised, later entries are never looked at. */
  lemma {:induction false} ViewApplyStops(snap: Table, offer: nat, bound: nat, m: Table, es: seq<DetailInput>, j: nat)
    requires snap.Keys <= m.Keys && j <= |es|
    requires !ViewApply(snap, offer, bound, m, es[..j]).1
    ensures ViewApply(snap, offer, bound, m, es) == ViewApply(snap, offer, bound, m, es[..j])
    decreases |es| - j
  {
    if j < |es| {
      assert es[..j + 1][..j] == es[..j];
      ViewApplyStops(snap, offer, bound, m, es, j + 1);
    } else {
      assert es[..j] == es;
    }
  }

  /** The view loop followed by the serializer's upsert of the same entries: the
      second pass writes nothing new. Every tier exists after the first pass, the
      index rebuilt from the updated table picks the same rows, and overwriting a
      row twice with the same entries is overwriting it once. */
  lemma SecondPassIsNoOp(snap: Table, offer: nat, bound: nat, next: nat, es: seq<DetailInput>)
    requires IdsBelow(snap, next) && IdsBelow(snap, bound)
    requires ViewApply(snap, offer, bound, snap, es).1
    ensures var f := ViewApply(snap, offer, bound, snap, es).0;
      Upsert(f, offer, bound, f, next, es) == (f, next)
  {
    ViewApplyCommitsPrefix(snap, offer, bound, snap, next, es);
    var k := MatchedPrefix(snap, offer, bound, es);
    assert es[..k] == es;
    var f := Upsert(snap, offer, bound, snap, next, es).0;
    MatchedPassKeepsTargets(snap, offer, bound, next, es);
    UpsertSameTargets(f, snap, offer, bound, f, next, es);
    MatchedPassIdempotent(snap, offer, bound, next, es);
  }

  /** A pass in which every entry finds its row keeps the table's ids, parents
      and tiers, so the index rebuilt from its result picks the same rows. */
  lemma MatchedPassKeepsTargets(snap: Table, offer: nat, bound: nat, next: nat, es: seq<DetailInput>)
    requires IdsBelow(snap, next)
    requires forall i :: 0 <= i < |es| ==> Target(snap, offer, bound, es[i]).Some?
    ensures var f := Upsert(snap, offer, bound, snap, next, es).0;
      && f.Keys == snap.Keys
      && forall i :: 0 <= i < |es| ==> Target(f, offer, bound, es[i]) == Target(snap, offer, bound, es[i])
  {
    UpsertAllMatched(snap, offer, bound, snap, next, es);
    var f := Upsert(snap, offer, bound, snap, next, es).0;
    forall id | id in f
      ensures f[id].offer == snap[id].offer && f[id].offerType == snap[id].offerType
    {
      UpsertAt(snap, offer, bound, snap, next, es, id);
      MergeForKeepsTier(snap, offer, bound, es, id);
    }
    forall i | 0 <= i < |es|
      ensures Target(f, offer, bound, es[i]) == Target(snap, offer, bound, es[i])
    {
      FindDetailSameTiers(f, snap, offer, KeyOf(es[i]), bound);
    }
  }

  /** Repeating a pass in which every entry finds its row changes nothing:
      each row receives the same merged writes again. */
  lemma MatchedPassIdempotent(snap: Table, offer: nat, bound: nat, next: nat, es: seq<DetailInput>)
    requires IdsBelow(snap, next)
    requires forall i :: 0 <= i < |es| ==> Target(snap, offer, bound, es[i]).Some?
    ensures var f := Upsert(snap, offer, bound, snap, next, es).0;
      Upsert(snap, offer, bound, f, next, es) == (f, next)
  {
    UpsertAllMatched(snap, offer, bound, snap, next, es);
    var f := Upsert(snap, offer, bound, snap, next, es).0;
    UpsertAllMatched(snap, offer, bound, f, next, es);
    var g := Upsert(snap, offer, bound, f, next, es).0;
    assert IdsBelow(f, next);
    forall id | id in g
      ensures g[id] == f[id]
    {
      UpsertAt(snap, offer, bound, f, next, es, id);
      UpsertAt(snap, offer, bound, snap, next, es, id);
      OverwriteIdempotent(snap[id], MergeFor(snap, offer, bound, es, id));
    }
    assert g == f;
  }
}

=== FILE: offer_query.dfy ===
/** The offer list query: the `creator_id` and `max_delivery_time` filters and
    the model's default ordering, most recently updated first. */
module OfferQuery {
  import opened Wrappers
  import opened Records
  import opened Text
  import opened DetailUpsert

  type OfferTable = map<nat, Offer>

  /** The offer has a row whose (non-null) delivery time is within `days`. */
  predicate HasTierWithin(details: Table, offer: nat, days: int) {
    exists k :: k in details && details[k].offer == offer
                && details[k].deliveryTime.Some? && details[k].deliveryTime.value <= days
  }

  /** The filters, applied together. */
  predicate Keep(offers: OfferTable, details: Table, id: nat, creator: Param, maxDays: Param)
    requires id in offers
  {
    && (creator.Parsed? ==> offers[id].user == creator.n)
    && (maxDays.Parsed? ==> HasTierWithin(details, id, maxDays.n))
  }

  /** The ids below `bound` of the offers kept by the filters, ascending. */
  function Matching(offers: OfferTable, details: Table, creator: Param, maxDays: Param, bound: nat): (r: seq<nat>)
    ensures forall k: nat :: k in r <==> k < bound && k in offers && Keep(offers, details, k, creator, maxDays)
    ensures forall k :: multiset(r)[k] <= 1
    decreases bound
  {
    if bound == 0 then []
    else
      var p := Matching(offers, details, creator, maxDays, bound - 1);
      if bound - 1 in offers && Keep(offers, details, bound - 1, creator, maxDays) then
        assert multiset(p)[bound - 1] == 0;
        p + [bound - 1]
      else p
  }

  predicate AllIn(offers: OfferTable, s: seq<nat>) {
    forall i :: 0 <= i < |s| ==> s[i] in offers
  }

  /** Ordering `-updated_at`. */
  predicate NewestFirst(offers: OfferTable, s: seq<nat>)
    requires AllIn(offers, s)
  {
    forall i, j :: 0 <= i < j < |s| ==> offers[s[i]].updatedAt >= offers[s[j]].updatedAt
  }

  /** Putting an offer in front of a newest-first list that starts no later keeps it newest-first. */
  lemma ConsNewestFirst(offers: OfferTable, x: nat, s: seq<nat>)
    requires x in offers && AllIn(offers, s) && NewestFirst(offers, s)
    requires s != [] ==> offers[x].updatedAt >= offers[s[0]].updatedAt
    ensures AllIn(offers, [x] + s) && NewestFirst(offers, [x] + s)
  {
    var r := [x] + s;
    forall i, j | 0 <= i < j < |r|
      ensures offers[r[i]].updatedAt >= offers[r[j]].updatedAt
    {
      if i == 0 && j > 1 {
        assert r[j] == s[j - 1] && offers[s[0]].updatedAt >= offers[s[j - 1]].updatedAt;
      }
    }
  }

  /** The tail of a newest-first list is newest-first. */
  lemma TailNewestFirst(offers: OfferTable, s: seq<nat>)
    requires s != [] && AllIn(offers, s) && NewestFirst(offers, s)
    ensures AllIn(offers, s[1..]) && NewestFirst(offers, s[1..]) && s == [s[0]] + s[1..]
  {
    assert forall i :: 0 <= i < |s[1..]| ==> s[1..][i] == s[i + 1];
  }

  function Insert(offers: OfferTable, x: nat, s: seq<nat>): (r: seq<nat>)
    requires x in offers && AllIn(offers, s) && NewestFirst(offers, s)
    ensures AllIn(offers, r) && NewestFirst(offers, r)
    ensures |r| == |s| + 1 && (r[0] == x || (s != [] && r[0] == s[0]))
  {
    if s == [] then [x]
    else if offers[x].updatedAt >= offers[s[0]].updatedAt then
      ConsNewestFirst(offers, x, s);
      [x] + s
    else
      TailNewestFirst(offers, s);
      var tail := Insert(offers, x, s[1..]);
      ConsNewestFirst(offers, s[0], tail);
      [s[0]] + tail
  }

  /** Inserting adds the one offer and loses none. */
  lemma {:induction false} InsertPermutes(offers: OfferTable, x: nat, s: seq<nat>)
    requires x in offers && AllIn(offers, s) && NewestFirst(offers, s)
    ensures multiset(Insert(offers, x, s)) == multiset(s) + multiset{x}
  {
    if s != [] && offers[x].updatedAt < offers[s[0]].updatedAt {
      TailNewestFirst(offers, s);
      InsertPermutes(offers, x, s[1..]);
    }
  }

  /** Insertion sort by `updated_at`, newest first. */
  function SortNewestFirst(offers: OfferTable, s: seq<nat>): (r: seq<nat>)
    requires AllIn(offers, s)
    ensures AllIn(offers, r) && NewestFirst(offers, r)
    ensures multiset(r) == multiset(s)
  {
    if s == [] then []
    else
      assert s == [s[0]] + s[1..];
      InsertPermutes(offers, s[0], SortNewestFirst(offers, s[1..]));
      Insert(offers, s[0], SortNewestFirst(offers, s[1..]))
  }

  /** OfferViewset.get_queryset with the default ordering: each kept offer once,
      newest first. A malformed `creator_id` fails in the database lookup (500);
      a malformed `max_delivery_time` is a validation error. */
  function ListOffers(offers: OfferTable, details: Table, bound: nat,
                      creatorId: Option<string>, maxDeliveryTime: Option<string>): (r: Result<seq<nat>>)
    ensures ReadParam(creatorId).Malformed? ==> r == Err(ServerError)
    ensures !ReadParam(creatorId).Malformed? && ReadParam(maxDeliveryTime).Malformed? ==>
      r == Err(Invalid({"error"}))
    ensures r.Ok? <==> !ReadParam(creatorId).Malformed? && !ReadParam(maxDeliveryTime).Malformed?
    ensures r.Ok? ==> AllIn(offers, r.value) && NewestFirst(offers, r.value)
    ensures r.Ok? ==> forall k: nat :: k in r.value <==>
      k < bound && k in offers && Keep(offers, details, k, ReadParam(creatorId), ReadParam(maxDeliveryTime))
    ensures r.Ok? ==> forall k :: multiset(r.value)[k] <= 1
  {
    var creator := ReadParam(creatorId);
    var maxDays := ReadParam(maxDeliveryTime);
    if creator.Malformed? then Err(ServerError)
    else if maxDays.Malformed? then Err(Invalid({"error"}))
    else
      var ids := Matching(offers, details, creator, maxDays, bound);
      var sorted := SortNewestFirst(offers, ids);
      assert forall k :: k in sorted <==> k in multiset(sorted);
      Ok(sorted)
  }
}

=== FILE: offer_rules.dfy ===
/** Request validation of the offer serializer: the scalar field validators and
    the cross-field check of the submitted `details` list. */
module OfferRules {
  import opened Wrappers
  import opened Records

  const TITLE_MAX_LENGTH: nat := 255
  const DESCRIPTION_MAX_LENGTH: nat := 255

  /** The three tiers a POST or PUT must cover. */
  const REQUIRED_TYPES: set<string> := {"basic", "standard", "premium"}

  /** `detail.get("offer_type")`: a missing key reads as None, like an explicit null. */
  function KeyOf(e: DetailInput): (k: Option<string>)
    ensures e.offerType.Absent? ==> k == None
    ensures e.offerType.Given? ==> k == e.offerType.value
  {
    match e.offerType
    case Absent => None
    case Given(t) => t
  }

  /** The list the view and the serializer iterate: null and a missing key both mean none. */
  function Entries(details: Option<seq<DetailInput>>): seq<DetailInput> {
    details.GetOr([])
  }

  predicate Submits(es: seq<DetailInput>, t: string) {
    exists i :: 0 <= i < |es| && KeyOf(es[i]) == Some(t)
  }

  /** `{"basic", "standard", "premium"}.issubset({d.get("offer_type") for d in details})`. */
  predicate CoversRequiredTypes(es: seq<DetailInput>) {
    forall t :: t in REQUIRED_TYPES ==> Submits(es, t)
  }

  /** Index of the first entry without an `offer_type` key, or |es| if every entry has one. */
  function FirstUntyped(es: seq<DetailInput>): (k: nat)
    ensures k <= |es|
    ensures forall i :: 0 <= i < k ==> es[i].offerType.Given?
    ensures k < |es| ==> es[k].offerType.Absent?
  {
    if es == [] then 0
    else if es[0].offerType.Absent? then 0
    else 1 + FirstUntyped(es[1..])
  }

  /** OfferSerializer.validate on the raw `details` of the request. */
  function ValidateDetails(verb: Method, details: Option<seq<DetailInput>>): (r: Outcome)
    ensures r.Fail? ==> r.error == Invalid({"details"})
    ensures Entries(details) == [] ==> r == Pass
    ensures (exists i :: 0 <= i < |Entries(details)| && Entries(details)[i].offerType.Absent?) ==> r.Fail?
    ensures r.Pass? && (verb == Post || verb == Put) && Entries(details) != [] ==>
      CoversRequiredTypes(Entries(details))
    ensures verb != Post && verb != Put ==>
      (r.Pass? <==> forall i :: 0 <= i < |Entries(details)| ==> Entries(details)[i].offerType.Given?)
    ensures ((forall i :: 0 <= i < |Entries(details)| ==> Entries(details)[i].offerType.Given?)
             && CoversRequiredTypes(Entries(details)))
            ==> r == Pass
  {
    var es := Entries(details);
    if es == [] then Pass
    else if FirstUntyped(es) < |es| then Fail(Invalid({"details"}))
    else if (verb == Post || verb == Put) && !CoversRequiredTypes(es) then Fail(Invalid({"details"}))
    else Pass
  }

  /** Duplicate and extra tiers are not rejected: only the subset test is made. */
  lemma DuplicatesAndExtrasAccepted(t: Option<string>)
    ensures ValidateDetails(Post, Some([Entry(Some("basic")), Entry(Some("basic")), Entry(Some("standard")),
                                        Entry(Some("premium")), Entry(t)])) == Pass
  {
    var es := [Entry(Some("basic")), Entry(Some("basic")), Entry(Some("standard")),
               Entry(Some("premium")), Entry(t)];
    assert KeyOf(es[0]) == Some("basic") && KeyOf(es[2]) == Some("standard") && KeyOf(es[3]) == Some("premium");
  }

  /** A PATCH may submit a single tier; a POST or PUT of the same list is rejected. */
  lemma SingleTierOnlyOnPatch()
    ensures ValidateDetails(Patch, Some([Entry(Some("basic"))])) == Pass
    ensures ValidateDetails(Put, Some([Entry(Some("basic"))])).Fail?
    ensures ValidateDetails(Post, Some([Entry(Some("basic"))])).Fail?
  {
    var es := [Entry(Some("basic"))];
    assert !Submits(es, "premium");
  }

  /** An entry giving only its tier. */
  function Entry(t: Option<string>): DetailInput {
    DetailInput(Given(t), Absent, Absent, Absent, Absent, Absent)
  }

  /** Field-level validation of the offer's own columns (non-blank, length-limited text). */
  function OfferFieldErrors(o: OfferInput): (errs: set<string>)
    ensures "title" in errs <==> o.title.Given? && (o.title.value == "" || |o.title.value| > TITLE_MAX_LENGTH)
    ensures "description" in errs <==>
      o.description.Given? && (o.description.value == "" || |o.description.value| > DESCRIPTION_MAX_LENGTH)
    ensures errs <= {"title", "description"}
  {
    (if o.title.Given? && (o.title.value == "" || |o.title.value| > TITLE_MAX_LENGTH) then {"title"} else {})
    + (if o.description.Given? && (o.description.value == "" || |o.description.value| > DESCRIPTION_MAX_LENGTH)
       then {"description"} else {})
  }

  /** `Offer.objects.create(user=owner, **validated_data)`; both timestamps are `now`. */
  function NewOffer(owner: UserId, o: OfferInput, now: int): (r: Offer)
    ensures r.user == owner && r.createdAt == now && r.updatedAt == now
    ensures o.title.Given? ==> r.title == o.title.value
    ensures o.title.Absent? ==> r.title == DEFAULT_OFFER_TITLE
    ensures o.description.Given? ==> r.description == o.description.value
    ensures o.description.Absent? ==> r.description == DEFAULT_OFFER_DESCRIPTION
    ensures o.image.Given? ==> r.image == o.image.value
    ensures o.image.Absent? ==> r.image == None
  {
    Offer(owner, o.title.Or(DEFAULT_OFFER_TITLE), o.image.Or(None),
          o.description.Or(DEFAULT_OFFER_DESCRIPTION), now, now)
  }

  /** `setattr(instance, attr, value)` for each validated column, then save (which stamps `updated_at`). */
  function ApplyOfferInput(x: Offer, o: OfferInput, now: int): (r: Offer)
    ensures r.user == x.user && r.createdAt == x.createdAt && r.updatedAt == now
    ensures o.title.Given? ==> r.title == o.title.value
    ensures o.title.Absent? ==> r.title == x.title
    ensures o.description.Given? ==> r.description == o.description.value
    ensures o.description.Absent? ==> r.description == x.description
    ensures o.image.Given? ==> r.image == o.image.value
    ensures o.image.Absent? ==> r.image == x.image
  {
    x.(title := o.title.Or(x.title), image := o.image.Or(x.image),
       description := o.description.Or(x.description), updatedAt := now)
  }

  /** The request that gives no offer column. */
  const NO_OFFER_CHANGE: OfferInput := OfferInput(Absent, Absent, Absent)

  /** Creating an offer with columns is creating it with the defaults and then
      writing the columns; writing the same columns again changes nothing but
      the timestamp. */
  lemma NewOfferIsDefaultsThenUpdate(owner: UserId, o: OfferInput, now: int, later: int)
    ensures ApplyOfferInput(NewOffer(owner, NO_OFFER_CHANGE, now), o, now) == NewOffer(owner, o, now)
    ensures ApplyOfferInput(ApplyOfferInput(NewOffer(owner, o, now), o, now), o, later)
         == NewOffer(owner, o, now).(updatedAt := later)
  {
  }
}

=== FILE: offer_view.dfy ===
/** The offer serializer's output: the derived minimum price and delivery time,
    and the context-dependent shape of `details` and `user_details`. */
module OfferView {
  import opened Wrappers
  import opened Records
  import opened Text
  import opened DetailUpsert

  predicate InOffer(m: Table, k: nat, offer: nat) {
    k in m && m[k].offer == offer
  }

  /** `offer.offer_details.all()`: the ids of the offer's rows, ascending. */
  function DetailIds(m: Table, offer: nat, bound: nat): (r: seq<nat>)
    ensures forall k: nat :: k in r <==> k < bound && InOffer(m, k, offer)
    ensures forall i, j :: 0 <= i < j < |r| ==> r[i] < r[j]
    decreases bound
  {
    if bound == 0 then []
    else
      var p := DetailIds(m, offer, bound - 1);
      assert forall i :: 0 <= i < |p| ==> p[i] in p;
      if InOffer(m, bound - 1, offer) then p + [bound - 1] else p
  }

  /** The smallest element, or 0 for the empty list (the aggregate's None replaced by zero). */
  function MinOrZero(xs: seq<int>): (r: int)
    ensures xs == [] ==> r == 0
    ensures xs != [] ==> r in xs && forall x :: x in xs ==> r <= x
  {
    if xs == [] then 0
    else if |xs| == 1 then xs[0]
    else
      var rest := MinOrZero(xs[1..]);
      assert forall x :: x in xs ==> x == xs[0] || x in xs[1..];
      if xs[0] <= rest then xs[0] else rest
  }

  function Prices(m: Table, ids: seq<nat>): (r: seq<int>)
    requires forall k :: k in ids ==> k in m
    ensures forall p :: p in r <==> exists k :: k in ids && m[k].price == p
  {
    if ids == [] then []
    else
      var rest := Prices(m, ids[1..]);
      assert forall k :: k in ids ==> k == ids[0] || k in ids[1..];
      [m[ids[0]].price] + rest
  }

  /** The non-null delivery times: SQL MIN skips NULL. */
  function DeliveryTimes(m: Table, ids: seq<nat>): (r: seq<int>)
    requires forall k :: k in ids ==> k in m
    ensures forall t :: t in r <==> exists k :: k in ids && m[k].deliveryTime == Some(t)
  {
    if ids == [] then []
    else
      var rest := DeliveryTimes(m, ids[1..]);
      assert forall k :: k in ids ==> k == ids[0] || k in ids[1..];
      match m[ids[0]].deliveryTime
      case Some(t) => [t] + rest
      case None => rest
  }

  /** `min_price`: the lowest price among the offer's rows, 0 when it has none. */
  function MinPrice(m: Table, offer: nat, bound: nat): (r: int)
    ensures (forall k: nat :: k < bound ==> !InOffer(m, k, offer)) ==> r == 0
    ensures forall k: nat :: k < bound && InOffer(m, k, offer) ==> r <= m[k].price
    ensures (exists k: nat :: k < bound && InOffer(m, k, offer))
            ==> exists k: nat :: k < bound && InOffer(m, k, offer) && m[k].price == r
  {
    var ids := DetailIds(m, offer, bound);
    var ps := Prices(m, ids);
    assert forall k: nat :: k < bound && InOffer(m, k, offer) ==> m[k].price in ps;
    MinOrZero(ps)
  }

  /** `min_delivery_time`: the shortest non-null delivery time, 0 when there is none. */
  function MinDeliveryTime(m: Table, offer: nat, bound: nat): (r: int)
    ensures (forall k: nat :: k < bound && InOffer(m, k, offer) ==> m[k].deliveryTime.None?) ==> r == 0
    ensures forall k: nat :: k < bound && InOffer(m, k, offer) && m[k].deliveryTime.Some? ==> r <= m[k].deliveryTime.value
    ensures (exists k: nat :: k < bound && InOffer(m, k, offer) && m[k].deliveryTime.Some?)
            ==> exists k: nat :: k < bound && InOffer(m, k, offer) && m[k].deliveryTime == Some(r)
  {
    var ids := DetailIds(m, offer, bound);
    var ts := DeliveryTimes(m, ids);
    assert forall k: nat :: k < bound && InOffer(m, k, offer) && m[k].deliveryTime.Some? ==> m[k].deliveryTime.value in ts;
    MinOrZero(ts)
  }

  // ------------------------------------------------------------ representation

  /** What the serializer context holds: the request's method (if there is a
      request) and the view's action (if there is a view with one). */
  datatype Context = Context(request: Option<Method>, action: Option<string>)

  /** OfferDetailsSerializer: every column but the parent link. */
  datatype DetailEntry = DetailEntry(
    id: nat, title: string, revisions: int, deliveryTime: Option<int>,
    price: int, features: seq<string>, offerType: Option<string>)

  /** OfferDetailsGETSerializer: the id and the detail's URL. */
  datatype DetailLink = DetailLink(id: nat, url: string)

  datatype DetailsView = Full(entries: seq<DetailEntry>) | Links(links: seq<DetailLink>)

  datatype UserSummary = UserSummary(firstName: string, lastName: string, username: string)

  datatype OfferRepr = OfferRepr(
    id: nat, user: UserId, title: string, image: Option<string>, description: string,
    createdAt: int, updatedAt: int, details: DetailsView,
    minPrice: int, minDeliveryTime: int, userDetails: Option<UserSummary>)

  const DETAIL_URL_PREFIX: string := "/offerdetails/"

  /** The routed path of a detail with the `/api` prefix removed. */
  function DetailUrl(id: nat): (u: string)
    ensures |u| > |DETAIL_URL_PREFIX| + 1 && u[..|DETAIL_URL_PREFIX|] == DETAIL_URL_PREFIX && u[|u| - 1] == '/'
  {
    DETAIL_URL_PREFIX + NatToString(id) + "/"
  }

  /** The id can be read back from the URL the representation gives. */
  lemma DetailUrlNamesDetail(id: nat)
    ensures var u := DetailUrl(id);
      var digits := u[|DETAIL_URL_PREFIX|..|u| - 1];
      IsAllDigits(digits) && DigitsValue(digits) == id
  {
    var u := DetailUrl(id);
    assert u[|DETAIL_URL_PREFIX|..|u| - 1] == NatToString(id);
    NatToStringRoundTrip(id);
  }

  function EntryOf(id: nat, d: OfferDetail): DetailEntry {
    DetailEntry(id, d.title, d.revisions, d.deliveryTime, d.price, d.features, d.offerType)
  }

  /** `get_details`: full rows on POST and PUT, id and URL otherwise. */
  function GetDetails(m: Table, ids: seq<nat>, ctx: Context): (r: DetailsView)
    requires forall k :: k in ids ==> k in m
    ensures r.Full? <==> ctx.request == Some(Post) || ctx.request == Some(Put)
    ensures r.Full? ==> |r.entries| == |ids| && forall i :: 0 <= i < |ids| ==> r.entries[i] == EntryOf(ids[i], m[ids[i]])
    ensures r.Links? ==> |r.links| == |ids| && forall i :: 0 <= i < |ids| ==> r.links[i] == DetailLink(ids[i], DetailUrl(ids[i]))
  {
    if ctx.request == Some(Post) || ctx.request == Some(Put) then
      Full(seq(|ids|, i requires 0 <= i < |ids| => EntryOf(ids[i], m[ids[i]])))
    else
      Links(seq(|ids|, i requires 0 <= i < |ids| => DetailLink(ids[i], DetailUrl(ids[i]))))
  }

  /** `to_representation`: `user_details` is kept only for the list action. */
  function Represent(id: nat, o: Offer, owner: User, m: Table, bound: nat, ctx: Context): (r: OfferRepr)
    ensures r.id == id && r.user == o.user && r.title == o.title && r.updatedAt == o.updatedAt
    ensures r.image == o.image && r.description == o.description && r.createdAt == o.createdAt
    ensures r.details == GetDetails(m, DetailIds(m, id, bound), ctx)
    ensures r.userDetails.Some? <==> ctx.request.Some? && ctx.action == Some("list")
    ensures r.userDetails.Some? ==> r.userDetails.value == UserSummary(owner.firstName, owner.lastName, owner.username)
    ensures r.details.Full? <==> ctx.request == Some(Post) || ctx.request == Some(Put)
    ensures r.minPrice == MinPrice(m, id, bound) && r.minDeliveryTime == MinDeliveryTime(m, id, bound)
  {
    var ids := DetailIds(m, id, bound);
    OfferRepr(id, o.user, o.title, o.image, o.description, o.createdAt, o.updatedAt,
              GetDetails(m, ids, ctx), MinPrice(m, id, bound), MinDeliveryTime(m, id, bound),
              if ctx.request.Some? && ctx.action == Some("list")
              then Some(UserSummary(owner.firstName, owner.lastName, owner.username)) else None)
  }
}

=== FILE: order_rules.dfy ===
/** The order rules that do not touch the store: the snapshot an order takes
    of an offer tier, the status vocabulary, the permission predicates, the
    caller's visible orders and the per-business counts. */
module OrderRules {
  import opened Wrappers
  import opened Records

  const STATUS_IN_PROGRESS: string := "in_progress"
  const STATUS_COMPLETED: string := "completed"
  const STATUS_CANCELLED: string := "cancelled"

  /** The values `validate_status` accepts. */
  const ORDER_STATUSES: set<string> := {STATUS_IN_PROGRESS, STATUS_COMPLETED, STATUS_CANCELLED}

  /** The column default of `status`. */
  const DEFAULT_ORDER_STATUS: string := STATUS_IN_PROGRESS

  /** UpdateOrderStatusSerializer.validate_status. */
  function ValidateStatus(value: string): (r: Result<string>)
    ensures r.Ok? <==> value == "in_progress" || value == "completed" || value == "cancelled"
    ensures r.Ok? ==> r.value == value
    ensures r.Err? ==> r.error == Invalid({"status"})
  {
    if value in ORDER_STATUSES then Ok(value) else Err(Invalid({"status"}))
  }

  /** UpdateOrderStatusSerializer.update followed by save: only `status` is
      assigned (the old value when none is given) and `updated_at` is stamped. */
  function ApplyStatus(o: Order, status: Field<string>, now: int): (r: Order)
    ensures r.(status := o.status, updatedAt := o.updatedAt) == o
    ensures status.Absent? ==> r.status == o.status
    ensures status.Given? ==> r.status == status.value
    ensures r.updatedAt == now
  {
    o.(status := status.Or(o.status), updatedAt := now)
  }

  /** The order's six copied columns agree with the tier and its offer. */
  predicate SnapshotOf(o: Order, offer: Offer, d: OfferDetail) {
    && o.title == offer.title
    && o.revisions == d.revisions
    && Some(o.deliveryTime) == d.deliveryTime
    && o.price == d.price
    && o.features == d.features
    && Some(o.offerType) == d.offerType
  }

  /** CreateOrderSerializer.create once the tier is found: the order copies the
      tier by value and the title from its offer. The order table's delivery
      time and offer type are NOT NULL, so a tier holding NULL in either makes
      the insert fail. */
  function PlaceOrder(customer: UserId, detailId: nat, offer: Offer, d: OfferDetail, now: int): (r: Result<Order>)
    ensures r.Err? <==> d.deliveryTime.None? || d.offerType.None?
    ensures r.Err? ==> r.error == ServerError
    ensures r.Ok? ==> SnapshotOf(r.value, offer, d)
    ensures r.Ok? ==> r.value.customer == customer && r.value.business == offer.user && r.value.offerDetail == detailId
    ensures r.Ok? ==> r.value.status == DEFAULT_ORDER_STATUS && r.value.createdAt == now && r.value.updatedAt == now
  {
    match (d.deliveryTime, d.offerType)
    case (Some(t), Some(k)) =>
      Ok(Order(customer, offer.user, detailId, offer.title, d.revisions, t, d.price, d.features, k,
               STATUS_IN_PROGRESS, now, now))
    case _ => Err(ServerError)
  }

  /** The body CreateOrderSerializer.to_representation builds: every column but `offer_detail`. */
  datatype CreatedOrder = CreatedOrder(
    id: nat, customerUser: UserId, businessUser: UserId, title: string, revisions: int,
    deliveryTime: int, price: int, features: seq<string>, offerType: string, status: string,
    createdAt: int, updatedAt: int)

  function RepresentCreated(id: nat, o: Order): (r: CreatedOrder)
    ensures r.id == id && r.customerUser == o.customer && r.businessUser == o.business
  {
    CreatedOrder(id, o.customer, o.business, o.title, o.revisions, o.deliveryTime, o.price,
                 o.features, o.offerType, o.status, o.createdAt, o.updatedAt)
  }

  /** The creation body loses exactly the `offer_detail` reference: two orders
      get the same body iff they differ at most in that column. */
  lemma RepresentCreatedOmitsOnlyDetail(id: nat, o1: Order, o2: Order)
    ensures RepresentCreated(id, o1) == RepresentCreated(id, o2) <==> o1.(offerDetail := o2.offerDetail) == o2
  {
    if RepresentCreated(id, o1) == RepresentCreated(id, o2) {
      var a := RepresentCreated(id, o1);
      var b := RepresentCreated(id, o2);
      assert a.title == b.title && a.features == b.features && a.status == b.status;
    }
  }

  /** The keys OrderSerializer declares read-only. */
  const ORDER_READ_ONLY_FIELDS: set<string> :=
    {"customer_user", "business_user", "title", "revisions", "delivery_time_in_days",
     "price", "features", "offer_type"}

  /** What of a request body OrderSerializer can write: the read-only keys are
      dropped. OrderSerializer writes only on the default full update (PUT), which
      this model leaves out, so no store operation uses this function; it records
      that `status` is the one column such a request could reach. */
  function OrderWritable<V>(data: map<string, V>): (r: map<string, V>)
    ensures r.Keys !! ORDER_READ_ONLY_FIELDS
    ensures forall k :: k in data && k !in ORDER_READ_ONLY_FIELDS ==> k in r && r[k] == data[k]
    ensures r.Keys <= data.Keys
  {
    map k | k in data && k !in ORDER_READ_ONLY_FIELDS :: data[k]
  }

  // -------------------------------------------------------------- permissions

  /** IsCustomerOrAdmin.has_permission: a profile is needed even for staff. */
  predicate CustomerOrAdmin(c: Caller, profile: Option<Profile>, isStaff: bool) {
    c.Authenticated? && profile.Some? && (profile.value.kind == Customer || isStaff)
  }

  lemma StaffWithoutProfileDenied(c: Caller)
    ensures !CustomerOrAdmin(c, None, true)
  {
  }

  /** IsCustomerOrAdmin.has_object_permission: reading is open to all; writing
      needs the order's customer or a staff user. The view installs this class
      only for `create`, which fetches no object, so no request reaches this
      check; the store does not use it, and the status update is guarded by the
      business-user rule instead. */
  predicate OrderObjectPermission(m: Method, o: Order, user: UserId, isStaff: bool) {
    IsSafe(m) || o.customer == user || isStaff
  }

  lemma OrderObjectPermissionCases(m: Method, o: Order, user: UserId, isStaff: bool)
    ensures IsSafe(m) ==> OrderObjectPermission(m, o, user, isStaff)
    ensures !IsSafe(m) ==> (OrderObjectPermission(m, o, user, isStaff) <==> o.customer == user || isStaff)
    ensures !IsSafe(m) && !isStaff && o.business == user && o.customer != user ==>
      !OrderObjectPermission(m, o, user, isStaff)
  {
  }

  /** The permission class OrderViewSet.get_permissions selects. */
  datatype OrderGuard = GuardCustomerOrAdmin | GuardAuthenticated

  function OrderGuardFor(action: string): (g: OrderGuard)
    ensures g == GuardCustomerOrAdmin <==> action == "create"
  {
    if action == "create" then GuardCustomerOrAdmin else GuardAuthenticated
  }

  /** OrderViewSet.perform_create's own check, which the overridden `create` never reaches. */
  predicate CustomerOnly(profile: Option<Profile>) {
    profile.Some? && profile.value.kind == Customer
  }

  /** A staff user with a business profile passes the guard of `create` although
      the customer-only check would refuse them. */
  lemma StaffBusinessPassesCreateGuard(id: UserId, p: Profile)
    requires p.kind == Business
    ensures CustomerOrAdmin(Authenticated(id), Some(p), true) && !CustomerOnly(Some(p))
  {
  }

  // ----------------------------------------------------------- queries

  type OrderTable = map<nat, Order>

  predicate IsParty(o: Order, u: UserId) {
    o.customer == u || o.business == u
  }

  /** OrderViewSet.get_queryset: the orders the user is customer or business of. */
  function VisibleOrders(orders: OrderTable, u: UserId): (r: set<nat>)
    ensures forall k :: k in r <==> k in orders && (orders[k].customer == u || orders[k].business == u)
  {
    set k | k in orders && IsParty(orders[k], u)
  }

  /** The ids of a business user's orders, and of those with a given status. */
  function OrdersOf(orders: OrderTable, business: UserId): set<nat> {
    set k | k in orders && orders[k].business == business
  }

  function WithStatus(orders: OrderTable, business: UserId, status: string): (r: set<nat>)
    ensures r <= OrdersOf(orders, business)
    ensures forall k :: k in r <==> k in orders && orders[k].business == business && orders[k].status == status
  {
    set k | k in orders && orders[k].business == business && orders[k].status == status
  }

  /** `Order.objects.filter(business_user=..., status=...).count()`. */
  function CountWithStatus(orders: OrderTable, business: UserId, status: string): (n: nat)
    ensures n <= |OrdersOf(orders, business)|
    ensures n == 0 <==> forall k :: k in orders && orders[k].business == business ==> orders[k].status != status
  {
    var s := WithStatus(orders, business, status);
    assert s == {} <==> forall k :: k in orders && orders[k].business == business ==> orders[k].status != status;
    assert |s| <= |OrdersOf(orders, business)| by { SubsetCard(s, OrdersOf(orders, business)); }
    |s|
  }

  lemma SubsetCard(a: set<nat>, b: set<nat>)
    requires a <= b
    ensures |a| <= |b|
  {
    assert b == a + (b - a);
  }

  /** When every order carries a status `validate_status` accepts, the three
      counts split the business user's orders. */
  lemma CountsPartitionOrders(orders: OrderTable, business: UserId)
    requires forall k :: k in orders ==> orders[k].status in ORDER_STATUSES
    ensures CountWithStatus(orders, business, STATUS_IN_PROGRESS)
          + CountWithStatus(orders, business, STATUS_COMPLETED)
          + CountWithStatus(orders, business, STATUS_CANCELLED)
         == |OrdersOf(orders, business)|
  {
    var a := WithStatus(orders, business, STATUS_IN_PROGRESS);
    var b := WithStatus(orders, business, STATUS_COMPLETED);
    var c := WithStatus(orders, business, STATUS_CANCELLED);
    assert OrdersOf(orders, business) == a + b + c;
    assert a !! b && (a + b) !! c;
    assert |a + b| == |a| + |b|;
    assert |a + b + c| == |a + b| + |c|;
  }
}

=== FILE: profile_rules.dfy ===
/** The profile rules that do not touch the store: who may edit a profile, the
    field validation and effect of an edit, the file URL, and the type lists. */
module ProfileRules {
  import opened Wrappers
  import opened Records
  import opened Registration

  type ProfileTable = map<UserId, Profile>

  const PROFILE_NAME_MAX_LENGTH: nat := 255
  const LOCATION_MAX_LENGTH: nat := 255
  const TEL_MAX_LENGTH: nat := 20
  const WORKING_HOURS_MAX_LENGTH: nat := 50
  const EMAIL_MAX_LENGTH: nat := 254

  /** Profile emails are unique where they are set; NULL may repeat. */
  predicate UniqueProfileEmails(profiles: ProfileTable) {
    forall u, v :: u in profiles && v in profiles && u != v && profiles[u].email.Some? ==>
      profiles[u].email != profiles[v].email
  }

  predicate EmailInUse(profiles: ProfileTable, email: string, except: Option<UserId>) {
    exists u :: u in profiles && Some(u) != except && profiles[u].email == Some(email)
  }

  /** ProfileDetailView.get_object's edit check: only PATCH and PUT are
      restricted, to the profile's own user or a staff user. */
  predicate CanEditProfile(m: Method, caller: UserId, owner: UserId, isStaff: bool) {
    (m == Patch || m == Put) ==> isStaff || caller == owner
  }

  lemma CanEditProfileCases(m: Method, caller: UserId, owner: UserId, isStaff: bool)
    ensures m != Patch && m != Put ==> CanEditProfile(m, caller, owner, isStaff)
    ensures isStaff ==> CanEditProfile(m, caller, owner, isStaff)
    ensures (m == Patch || m == Put) && !isStaff ==> (CanEditProfile(m, caller, owner, isStaff) <==> caller == owner)
  {
  }

  /** The keys of a partial profile update. `first_name` and `last_name` belong
      to the user row, everything else to the profile. */
  datatype ProfilePatch = ProfilePatch(
    firstName: Field<string>,
    lastName: Field<string>,
    file: Field<Option<string>>,
    name: Field<string>,
    location: Field<string>,
    tel: Field<string>,
    description: Field<string>,
    workingHours: Field<string>,
    kind: Field<string>,
    email: Field<Option<string>>)

  /** The keys ProfileSerializer validates. */
  const PROFILE_CHECKED_FIELDS: set<string> := {"name", "location", "tel", "working_hours", "type", "email"}

  /** Does the patch fail the check of one key? */
  predicate FieldInvalid(profiles: ProfileTable, owner: UserId, p: ProfilePatch, key: string) {
    match key
    case "name" => p.name.Given? && (p.name.value == "" || |p.name.value| > PROFILE_NAME_MAX_LENGTH)
    case "location" => p.location.Given? && |p.location.value| > LOCATION_MAX_LENGTH
    case "tel" => p.tel.Given? && |p.tel.value| > TEL_MAX_LENGTH
    case "working_hours" => p.workingHours.Given? && |p.workingHours.value| > WORKING_HOURS_MAX_LENGTH
    case "type" => p.kind.Given? && ParseUserType(p.kind).None?
    case "email" =>
      p.email.Given? && p.email.value.Some? && p.email.value.value != "" &&
      (|p.email.value.value| > EMAIL_MAX_LENGTH || EmailInUse(profiles, p.email.value.value, Some(owner)))
    case _ => false
  }

  /** ProfileSerializer's field validation for an edit of `owner`'s profile. */
  function ProfileFieldErrors(profiles: ProfileTable, owner: UserId, p: ProfilePatch): (errs: set<string>)
    ensures "name" in errs <==> p.name.Given? && (p.name.value == "" || |p.name.value| > PROFILE_NAME_MAX_LENGTH)
    ensures "location" in errs <==> p.location.Given? && |p.location.value| > LOCATION_MAX_LENGTH
    ensures "tel" in errs <==> p.tel.Given? && |p.tel.value| > TEL_MAX_LENGTH
    ensures "working_hours" in errs <==> p.workingHours.Given? && |p.workingHours.value| > WORKING_HOURS_MAX_LENGTH
    ensures "type" in errs <==> p.kind.Given? && ParseUserType(p.kind).None?
    ensures "email" in errs <==>
      (p.email.Given? && p.email.value.Some? && p.email.value.value != "" &&
       (|p.email.value.value| > EMAIL_MAX_LENGTH || EmailInUse(profiles, p.email.value.value, Some(owner))))
    ensures errs <= {"name", "location", "tel", "working_hours", "type", "email"}
  {
    set key | key in PROFILE_CHECKED_FIELDS && FieldInvalid(profiles, owner, p, key)
  }

  /** A blank email ends the field's validation before its validators run, so
      the uniqueness check is skipped; a blank email another profile already
      holds is only caught by the unique column when the profile is saved. */
  predicate BlankEmailClash(profiles: ProfileTable, owner: UserId, p: ProfilePatch) {
    p.email == Given(Some("")) && EmailInUse(profiles, "", Some(owner))
  }

  /** A blank email is never a field error, whoever holds it; a non-blank one
      another profile holds always is. */
  lemma BlankEmailPassesValidation(profiles: ProfileTable, owner: UserId, p: ProfilePatch, e: string)
    ensures p.email == Given(Some("")) ==> "email" !in ProfileFieldErrors(profiles, owner, p)
    ensures p.email == Given(Some(e)) && e != "" && EmailInUse(profiles, e, Some(owner)) ==>
      "email" in ProfileFieldErrors(profiles, owner, p)
  {
  }

  /** The user-row half of ProfileSerializer.update: each name is copied only when present. */
  function ApplyNames(u: User, p: ProfilePatch): (r: User)
    ensures r.username == u.username && r.email == u.email && r.isStaff == u.isStaff
    ensures p.firstName.Absent? ==> r.firstName == u.firstName
    ensures p.firstName.Given? ==> r.firstName == p.firstName.value
    ensures p.lastName.Absent? ==> r.lastName == u.lastName
    ensures p.lastName.Given? ==> r.lastName == p.lastName.value
  {
    u.(firstName := p.firstName.Or(u.firstName), lastName := p.lastName.Or(u.lastName))
  }

  /** `if file:` — only a non-empty upload replaces the stored file; a null or
      empty one leaves it as it was. */
  function NewFile(stored: Option<string>, f: Field<Option<string>>): (r: Option<string>)
    ensures r != stored ==> f.Given? && f.value.Some? && f.value.value != "" && r == f.value
    ensures f.Given? && f.value.Some? && f.value.value != "" ==> r == f.value
  {
    match f
    case Given(Some(name)) => if name != "" then Some(name) else stored
    case _ => stored
  }

  /** The profile-row half of ProfileSerializer.update (the patch has passed validation). */
  function ApplyProfilePatch(pr: Profile, p: ProfilePatch): (r: Profile)
    requires ParseUserType(p.kind).Some?
    ensures r.createdAt == pr.createdAt
    ensures r.file == NewFile(pr.file, p.file)
    ensures p.name.Given? ==> r.name == p.name.value
    ensures p.name.Absent? ==> r.name == pr.name
    ensures p.location.Given? ==> r.location == p.location.value
    ensures p.location.Absent? ==> r.location == pr.location
    ensures p.tel.Given? ==> r.tel == p.tel.value
    ensures p.tel.Absent? ==> r.tel == pr.tel
    ensures p.description.Given? ==> r.description == p.description.value
    ensures p.description.Absent? ==> r.description == pr.description
    ensures p.workingHours.Given? ==> r.workingHours == p.workingHours.value
    ensures p.workingHours.Absent? ==> r.workingHours == pr.workingHours
    ensures p.kind.Absent? ==> r.kind == pr.kind
    ensures p.kind.Given? ==> UserTypeName(r.kind) == p.kind.value
    ensures p.email.Given? ==> r.email == p.email.value
    ensures p.email.Absent? ==> r.email == pr.email
    ensures p == ProfilePatch(p.firstName, p.lastName, Absent, Absent, Absent, Absent, Absent, Absent, Absent, Absent)
            ==> r == pr
  {
    pr.(file := NewFile(pr.file, p.file),
        name := p.name.Or(pr.name),
        location := p.location.Or(pr.location),
        tel := p.tel.Or(pr.tel),
        description := p.description.Or(pr.description),
        workingHours := p.workingHours.Or(pr.workingHours),
        kind := if p.kind.Given? then ParseUserType(p.kind).value else pr.kind,
        email := p.email.Or(pr.email))
  }

  /** Saving the same patch twice leaves the profile as saving it once. */
  lemma ApplyProfilePatchIdempotent(pr: Profile, p: ProfilePatch)
    requires ParseUserType(p.kind).Some?
    ensures ApplyProfilePatch(ApplyProfilePatch(pr, p), p) == ApplyProfilePatch(pr, p)
  {
  }

  /** A new profile whose email no profile holds keeps profile emails unique. */
  lemma AddKeepsEmailsUnique(profiles: ProfileTable, owner: UserId, p: Profile)
    requires UniqueProfileEmails(profiles) && owner !in profiles
    requires p.email.Some? ==> !EmailInUse(profiles, p.email.value, None)
    ensures UniqueProfileEmails(profiles[owner := p])
  {
    var m := profiles[owner := p];
    forall u, v | u in m && v in m && u != v && m[u].email.Some?
      ensures m[u].email != m[v].email
    {
      if u == owner {
        assert m[v] == profiles[v];
      } else if v == owner && m[v].email.Some? {
        assert m[u] == profiles[u];
      }
    }
  }

  /** An edit that passed validation keeps profile emails unique: a new email
      is one no other profile holds, and NULL may repeat. */
  lemma EditKeepsEmailsUnique(profiles: ProfileTable, owner: UserId, p: ProfilePatch)
    requires UniqueProfileEmails(profiles) && owner in profiles
    requires "email" !in ProfileFieldErrors(profiles, owner, p) && ParseUserType(p.kind).Some?
    requires !BlankEmailClash(profiles, owner, p)
    ensures UniqueProfileEmails(profiles[owner := ApplyProfilePatch(profiles[owner], p)])
  {
    var m := profiles[owner := ApplyProfilePatch(profiles[owner], p)];
    forall u, v | u in m && v in m && u != v && m[u].email.Some?
      ensures m[u].email != m[v].email
    {
      if u == owner && p.email.Given? {
        assert !EmailInUse(profiles, m[u].email.value, Some(owner));
        assert m[v] == profiles[v];
      } else if v == owner && p.email.Given? && m[v].email.Some? {
        assert !EmailInUse(profiles, m[v].email.value, Some(owner));
        assert m[u] == profiles[u];
      }
    }
  }

  /** get_file_url: the absolute URL of the stored file, or None when there is
      no file or no request to build it from. The URL is the host followed by
      the stored path, which the model treats as opaque. */
  function FileUrl(file: Option<string>, request: Option<string>): (r: Option<string>)
    ensures r.Some? <==> file.Some? && file.value != "" && request.Some?
    ensures r.Some? ==> r.value == request.value + file.value
  {
    if file.Some? && file.value != "" && request.Some? then Some(request.value + file.value) else None
  }

  /** BusinessUserListView / CustomerUserListView: the profiles of one type. */
  function ProfilesOfType(profiles: ProfileTable, t: UserType): (r: set<UserId>)
    ensures forall u :: u in r <==> u in profiles && profiles[u].kind == t
  {
    set u | u in profiles && profiles[u].kind == t
  }

  /** Every profile appears in exactly one of the two lists. */
  lemma ProfileListsPartition(profiles: ProfileTable)
    ensures ProfilesOfType(profiles, Business) + ProfilesOfType(profiles, Customer) == profiles.Keys
    ensures ProfilesOfType(profiles, Business) !! ProfilesOfType(profiles, Customer)
  {
    var b := ProfilesOfType(profiles, Business);
    var c := ProfilesOfType(profiles, Customer);
    forall u | u in profiles ensures u in b + c {
      if profiles[u].kind == Business { assert u in b; } else { assert u in c; }
    }
  }
}

=== FILE: records.dfy ===
/** The record shapes of the marketplace tables, their column defaults, and the
    error taxonomy every endpoint reports. */
module Records {
  import opened Wrappers

  type UserId = nat

  /** The HTTP method of a request, as far as the endpoints branch on it. */
  datatype Method = Get | Head | Options | Post | Put | Patch | Delete

  /** The framework's SAFE_METHODS. */
  predicate IsSafe(m: Method) {
    m == Get || m == Head || m == Options
  }

  /** Who sent the request. The token layer only ever yields users that exist. */
  datatype Caller = Anonymous | Authenticated(id: UserId)

  /** The failures an endpoint reports. `Invalid` carries the keys of the error body. */
  datatype Error =
    | NotAuthenticated
    | PermissionDenied
    | NotFound
    | Invalid(fields: set<string>)
    | ServerError

  function StatusCode(e: Error): (code: int)
    ensures 400 <= code < 600
  {
    match e
    case NotAuthenticated => 401
    case PermissionDenied => 403
    case NotFound => 404
    case Invalid(_) => 400
    case ServerError => 500
  }

  /** How the framework reports a permission class's refusal: an anonymous
      caller is asked to authenticate, an authenticated one is forbidden. */
  function Denied(c: Caller): (e: Error)
    ensures c.Anonymous? <==> e == NotAuthenticated
    ensures c.Authenticated? <==> e == PermissionDenied
  {
    if c.Anonymous? then NotAuthenticated else PermissionDenied
  }

  datatype Result<+T> = Ok(value: T) | Err(error: Error)

  datatype Outcome = Pass | Fail(error: Error)

  // ---------------------------------------------------------------- users

  /** The framework's user row, with the columns the core reads or writes. */
  datatype User = User(username: string, email: string, firstName: string, lastName: string, isStaff: bool)

  /** Profile.USER_TYPES. */
  datatype UserType = Business | Customer

  function UserTypeName(t: UserType): string {
    match t
    case Business => "business"
    case Customer => "customer"
  }

  const DEFAULT_USER_TYPE: UserType := Customer
  const DEFAULT_PROFILE_NAME: string := "default"
  const DEFAULT_WORKING_HOURS: string := "8 - 16"

  /** One profile per user (the table is keyed by the user id). */
  datatype Profile = Profile(
    name: string,
    file: Option<string>,
    location: string,
    tel: string,
    description: string,
    workingHours: string,
    kind: UserType,
    email: Option<string>,
    createdAt: int)

  /** A profile row with every column not given taking its declared default. */
  function NewProfile(kind: UserType, name: string, email: Option<string>, now: int): (p: Profile)
    ensures p.kind == kind && p.name == name && p.email == email && p.createdAt == now
    ensures p.file == None && p.location == "" && p.tel == "" && p.description == ""
    ensures p.workingHours == DEFAULT_WORKING_HOURS
  {
    Profile(name, None, "", "", "", DEFAULT_WORKING_HOURS, kind, email, now)
  }

  // ---------------------------------------------------------------- offers

  const DEFAULT_OFFER_TITLE: string := "Untitled Offer"
  const DEFAULT_OFFER_DESCRIPTION: string := "No description provided"

  datatype Offer = Offer(
    user: UserId,
    title: string,
    image: Option<string>,
    description: string,
    createdAt: int,
    updatedAt: int)

  const DEFAULT_DETAIL_TITLE: string := "Untitled Detail"
  const DEFAULT_REVISIONS: int := 0
  const DEFAULT_DELIVERY_DAYS: int := 1
  const DEFAULT_PRICE_CENTS: int := 0
  const DEFAULT_OFFER_TYPE: string := "basic"

  /** An OfferDetails row. Prices are in cents; delivery time and offer type are nullable. */
  datatype OfferDetail = OfferDetail(
    offer: nat,
    title: string,
    revisions: int,
    deliveryTime: Option<int>,
    price: int,
    features: seq<string>,
    offerType: Option<string>)

  /** The row `OfferDetails(offer=offer)` builds when no column is given. */
  function DefaultDetail(offer: nat): (d: OfferDetail)
    ensures d.offer == offer && d.features == [] && d.offerType == Some(DEFAULT_OFFER_TYPE)
  {
    OfferDetail(offer, DEFAULT_DETAIL_TITLE, DEFAULT_REVISIONS, Some(DEFAULT_DELIVERY_DAYS),
                DEFAULT_PRICE_CENTS, [], Some(DEFAULT_OFFER_TYPE))
  }

  /** One entry of a request's `details` list: each modelled column is either absent or given. */
  datatype DetailInput = DetailInput(
    offerType: Field<Option<string>>,
    title: Field<string>,
    revisions: Field<int>,
    deliveryTime: Field<Option<int>>,
    price: Field<int>,
    features: Field<seq<string>>)

  /** The writable scalar columns of an offer request. */
  datatype OfferInput = OfferInput(
    title: Field<string>,
    image: Field<Option<string>>,
    description: Field<string>)

  // ---------------------------------------------------------------- orders

  /** An Order row: the six snapshot columns are copies, `offerDetail` only a reference. */
  datatype Order = Order(
    customer: UserId,
    business: UserId,
    offerDetail: nat,
    title: string,
    revisions: int,
    deliveryTime: int,
    price: int,
    features: seq<string>,
    offerType: string,
    status: string,
    createdAt: int,
    updatedAt: int)

  // ---------------------------------------------------------------- reviews

  /** A Review row; the rating is kept as an opaque value that is only copied. */
  datatype Review = Review(
    businessUser: UserId,
    reviewer: UserId,
    rating: int,
    description: string,
    createdAt: int,
    updatedAt: int)
}

=== FILE: registration.dfy ===
/** The registration request checks: field-level validators first, then the
    password rules of the serializer's cross-field validation. */
module Registration {
  import opened Wrappers
  import opened Records
  import opened Text

  const PASSWORD_FIELD_MIN_LENGTH: nat := 6
  const PASSWORD_MIN_LENGTH: nat := 8
  const USERNAME_MAX_LENGTH: nat := 150

  predicate HasDigit(s: string) { AnyChar(s, IsDigit) }
  predicate HasLower(s: string) { AnyChar(s, IsLower) }
  predicate HasUpper(s: string) { AnyChar(s, IsUpper) }

  /** The outcome of the cross-field validation; only the first failing rule is reported. */
  datatype PasswordVerdict = Accepted | Mismatch | TooShort | NoDigit | NoLowercase | NoUppercase

  function CheckPassword(password: string, repeated: string): (v: PasswordVerdict)
    ensures v == Mismatch <==> password != repeated
    ensures v == TooShort <==> password == repeated && |password| < PASSWORD_MIN_LENGTH
    ensures v == NoDigit <==>
      password == repeated && |password| >= PASSWORD_MIN_LENGTH
      && forall i :: 0 <= i < |password| ==> !IsDigit(password[i])
    ensures v == NoLowercase <==>
      && password == repeated && |password| >= PASSWORD_MIN_LENGTH
      && (exists i :: 0 <= i < |password| && IsDigit(password[i]))
      && forall i :: 0 <= i < |password| ==> !IsLower(password[i])
    ensures v == NoUppercase <==>
      && password == repeated && |password| >= PASSWORD_MIN_LENGTH
      && (exists i :: 0 <= i < |password| && IsDigit(password[i]))
      && (exists i :: 0 <= i < |password| && IsLower(password[i]))
      && forall i :: 0 <= i < |password| ==> !IsUpper(password[i])
    ensures v == Accepted <==>
      && password == repeated
      && |password| >= PASSWORD_MIN_LENGTH
      && (exists i :: 0 <= i < |password| && IsDigit(password[i]))
      && (exists i :: 0 <= i < |password| && IsLower(password[i]))
      && (exists i :: 0 <= i < |password| && IsUpper(password[i]))
  {
    if password != repeated then Mismatch
    else if |password| < PASSWORD_MIN_LENGTH then TooShort
    else if !HasDigit(password) then NoDigit
    else if !HasLower(password) then NoLowercase
    else if !HasUpper(password) then NoUppercase
    else Accepted
  }

  /** The key of the error body a rejected password is reported under. */
  function VerdictField(v: PasswordVerdict): string {
    if v == Mismatch then "repeated_password" else "password"
  }

  datatype RegistrationInput = RegistrationInput(
    username: string,
    email: string,
    password: string,
    repeated: string,
    kind: Field<string>)

  /** The ChoiceField over Profile.USER_TYPES with its default. */
  function ParseUserType(f: Field<string>): (r: Option<UserType>)
    ensures f.Absent? ==> r == Some(DEFAULT_USER_TYPE)
    ensures f.Given? ==> (r.Some? <==> f.value in {"business", "customer"})
    ensures r.Some? ==> f.Absent? || UserTypeName(r.value) == f.value
  {
    match f
    case Absent => Some(DEFAULT_USER_TYPE)
    case Given(s) =>
      if s == "business" then Some(Business)
      else if s == "customer" then Some(Customer)
      else None
  }

  predicate UsernameTaken(users: map<UserId, User>, name: string) {
    exists u :: u in users && users[u].username == name
  }

  predicate EmailTaken(users: map<UserId, User>, email: string) {
    exists u :: u in users && users[u].email == email
  }

  /** Every field whose own validators fail; the framework reports them all at once. */
  function FieldErrors(users: map<UserId, User>, r: RegistrationInput): (errs: set<string>)
    ensures "password" in errs <==> |r.password| < PASSWORD_FIELD_MIN_LENGTH
    ensures "repeated_password" in errs <==> |r.repeated| < PASSWORD_FIELD_MIN_LENGTH
    ensures "username" in errs <==>
      r.username == "" || |r.username| > USERNAME_MAX_LENGTH || UsernameTaken(users, r.username)
    ensures "email" in errs <==> r.email == "" || EmailTaken(users, r.email)
    ensures "type" in errs <==> ParseUserType(r.kind).None?
    ensures errs <= {"username", "email", "password", "repeated_password", "type"}
  {
    (if r.username == "" || |r.username| > USERNAME_MAX_LENGTH || UsernameTaken(users, r.username)
     then {"username"} else {})
    + (if r.email == "" || EmailTaken(users, r.email) then {"email"} else {})
    + (if |r.password| < PASSWORD_FIELD_MIN_LENGTH then {"password"} else {})
    + (if |r.repeated| < PASSWORD_FIELD_MIN_LENGTH then {"repeated_password"} else {})
    + (if ParseUserType(r.kind).None? then {"type"} else {})
  }

  /** Serializer validation of a registration: the profile type it accepts, or the error. */
  function ValidateRegistration(users: map<UserId, User>, r: RegistrationInput): (res: Result<UserType>)
    ensures res.Ok? <==> FieldErrors(users, r) == {} && CheckPassword(r.password, r.repeated) == Accepted
    ensures res.Ok? ==> Some(res.value) == ParseUserType(r.kind)
    ensures FieldErrors(users, r) != {} ==> res == Err(Invalid(FieldErrors(users, r)))
    ensures FieldErrors(users, r) == {} && r.password != r.repeated ==>
      res == Err(Invalid({"repeated_password"}))
    ensures FieldErrors(users, r) == {} && r.password == r.repeated
            && CheckPassword(r.password, r.repeated) != Accepted ==>
      res == Err(Invalid({"password"}))
  {
    var errs := FieldErrors(users, r);
    if errs != {} then Err(Invalid(errs))
    else
      var v := CheckPassword(r.password, r.repeated);
      if v != Accepted then Err(Invalid({VerdictField(v)}))
      else Ok(ParseUserType(r.kind).value)
  }

  /** A six- or seven-character password passes the field validator and is then
      rejected by the eight-character rule. */
  lemma SevenCharactersRejectedAfterFieldCheck(users: map<UserId, User>, r: RegistrationInput)
    requires FieldErrors(users, r) == {}
    requires r.password == r.repeated && |r.password| == 7
    ensures ValidateRegistration(users, r) == Err(Invalid({"password"}))
  {
  }

  /** Strength rules are reported in the order digit, lower, upper: a password
      lacking a digit is reported as such whatever else it lacks. */
  lemma DigitReportedFirst(p: string)
    requires |p| >= PASSWORD_MIN_LENGTH
    requires forall i :: 0 <= i < |p| ==> !IsDigit(p[i])
    ensures CheckPassword(p, p) == NoDigit
  {
  }
}

=== FILE: review_rules.dfy ===
/** The review rules that do not touch the store: the permission dispatch, the
    key filter of a partial update, the one-review-per-pair rule and the list
    filters. */
module ReviewRules {
  import opened Wrappers
  import opened Records
  import opened Text

  type ReviewTable = map<nat, Review>

  /** The permission class ReviewViewSet.get_permissions selects. The two
      role-based classes live in a module this model does not include, so
      their verdicts are given to the store as parameters. */
  datatype ReviewGuard = GuardCustomerOrAdmin | GuardReviewerOrAdmin | GuardAuthenticated

  function ReviewGuardFor(action: string): (g: ReviewGuard)
    ensures g == GuardCustomerOrAdmin <==> action == "create"
    ensures g == GuardReviewerOrAdmin <==> action in {"update", "partial_update", "destroy"}
    ensures g == GuardAuthenticated <==> action !in {"create", "update", "partial_update", "destroy"}
  {
    if action == "create" then GuardCustomerOrAdmin
    else if action in {"update", "partial_update", "destroy"} then GuardReviewerOrAdmin
    else GuardAuthenticated
  }

  /** The keys a partial update keeps. */
  const REVIEW_EDITABLE_FIELDS: set<string> := {"rating", "description"}

  /** ReviewViewSet.partial_update's rewrite of the request body. */
  function StripPatch<V>(data: map<string, V>): (r: map<string, V>)
    ensures r.Keys <= REVIEW_EDITABLE_FIELDS
    ensures forall k :: k in data && k in REVIEW_EDITABLE_FIELDS ==> k in r && r[k] == data[k]
    ensures forall k :: k in r ==> k in data
  {
    Only(data, REVIEW_EDITABLE_FIELDS)
  }

  /** Stripping twice is stripping once; neither the reviewer nor the reviewed
      business can be reached through a partial update. */
  lemma StripPatchProperties<V>(data: map<string, V>)
    ensures StripPatch(StripPatch(data)) == StripPatch(data)
    ensures "business_user" !in StripPatch(data) && "reviewer" !in StripPatch(data)
  {
    assert StripPatch(StripPatch(data)).Keys == StripPatch(data).Keys;
  }

  predicate HasReviewed(reviews: ReviewTable, reviewer: UserId, business: UserId) {
    exists k :: k in reviews && reviews[k].reviewer == reviewer && reviews[k].businessUser == business
  }

  /** At most one review per (reviewer, business user) pair. */
  predicate UniqueReviewPairs(reviews: ReviewTable) {
    forall j, k :: j in reviews && k in reviews && j != k ==>
      reviews[j].reviewer != reviews[k].reviewer || reviews[j].businessUser != reviews[k].businessUser
  }

  /** Adding a review for a pair that has none keeps the pairs unique. */
  lemma AddKeepsPairsUnique(reviews: ReviewTable, id: nat, r: Review)
    requires UniqueReviewPairs(reviews) && id !in reviews
    requires !HasReviewed(reviews, r.reviewer, r.businessUser)
    ensures UniqueReviewPairs(reviews[id := r])
  {
    var m := reviews[id := r];
    forall j, k | j in m && k in m && j != k
      ensures m[j].reviewer != m[k].reviewer || m[j].businessUser != m[k].businessUser
    {
      if j == id {
        assert k in reviews && m[k] == reviews[k];
      } else if k == id {
        assert j in reviews && m[j] == reviews[j];
      }
    }
  }

  /** A value of a request body, as far as the serializer tells them apart. */
  datatype ReviewValue = Number(n: int) | Text(s: string)

  /** The rating field's conversion: a number is taken as it is, a text is
      parsed; None is the field's `invalid` error. */
  function RatingValue(v: ReviewValue): (r: Option<int>)
    ensures v.Number? ==> r == Some(v.n)
    ensures v.Text? ==> r == ParseInt(v.s)
  {
    match v
    case Number(n) => Some(n)
    case Text(s) => ParseInt(s)
  }

  /** The description field's conversion: a number is turned into its decimal
      text, and a blank text is the field's `blank` error (None). */
  function DescriptionValue(v: ReviewValue): (r: Option<string>)
    ensures r.Some? <==> v.Number? || v.s != ""
    ensures r.Some? ==> r.value != ""
    ensures v.Text? && r.Some? ==> r.value == v.s
    ensures v.Number? ==> ParseInt(r.value) == Some(v.n)
  {
    match v
    case Number(n) => IntToStringRoundTrip(n); Some(IntToString(n))
    case Text(s) => if s == "" then None else Some(s)
  }

  /** A number and its decimal text give the same rating. */
  lemma RatingOfNumberText(n: int)
    ensures RatingValue(Text(IntToString(n))) == RatingValue(Number(n)) == Some(n)
  {
    IntToStringRoundTrip(n);
  }

  /** The review fields a request submits; the serializer takes `reviewer`
      from the caller, never from the body. */
  datatype ReviewInput = ReviewInput(businessUser: Option<UserId>, rating: Option<ReviewValue>, description: Option<ReviewValue>)

  /** ReviewSerializer's field validation: every field is required, the
      business user must exist, the rating must read as a number and the
      description must not be blank. */
  function ReviewFieldErrors(users: set<UserId>, r: ReviewInput): (errs: set<string>)
    ensures "business_user" in errs <==> r.businessUser.None? || r.businessUser.value !in users
    ensures "rating" in errs <==> r.rating.None? || (r.rating.value.Text? && ParseInt(r.rating.value.s).None?)
    ensures "description" in errs <==> r.description.None? || r.description.value == Text("")
    ensures errs <= {"business_user", "rating", "description"}
  {
    (if r.businessUser.None? || r.businessUser.value !in users then {"business_user"} else {})
    + (if r.rating.None? || RatingValue(r.rating.value).None? then {"rating"} else {})
    + (if r.description.None? || DescriptionValue(r.description.value).None? then {"description"} else {})
  }

  /** ReviewSerializer's validation of a partial body: only the keys present
      are checked, by the same rules as on creation. */
  function PatchErrors(body: map<string, ReviewValue>): (errs: set<string>)
    ensures "rating" in errs <==> "rating" in body && body["rating"].Text? && ParseInt(body["rating"].s).None?
    ensures "description" in errs <==> "description" in body && body["description"] == Text("")
    ensures errs <= {"rating", "description"}
  {
    (if "rating" in body && RatingValue(body["rating"]).None? then {"rating"} else {})
    + (if "description" in body && DescriptionValue(body["description"]).None? then {"description"} else {})
  }

  /** A partial body holding every key is checked exactly as a creation with
      an existing business user. */
  lemma PatchErrorsAgreeWithCreation(users: set<UserId>, b: UserId, rating: ReviewValue, description: ReviewValue)
    requires b in users
    ensures PatchErrors(map["rating" := rating, "description" := description])
         == ReviewFieldErrors(users, ReviewInput(Some(b), Some(rating), Some(description)))
  {
    var body := map["rating" := rating, "description" := description];
    var e := ReviewFieldErrors(users, ReviewInput(Some(b), Some(rating), Some(description)));
    assert PatchErrors(body) <= {"rating", "description"};
    assert "business_user" !in e;
    assert forall k :: k in PatchErrors(body) <==> k in e;
  }

  /** The save of a validated partial body: the given fields are written, as
      converted, and `updated_at` is stamped; who reviewed whom never changes. */
  function ApplyReviewPatch(r: Review, body: map<string, ReviewValue>, now: int): (u: Review)
    requires PatchErrors(body) == {}
    ensures u.businessUser == r.businessUser && u.reviewer == r.reviewer && u.createdAt == r.createdAt
    ensures "rating" in body && body["rating"].Number? ==> u.rating == body["rating"].n
    ensures "rating" in body && body["rating"].Text? ==> Some(u.rating) == ParseInt(body["rating"].s)
    ensures "rating" !in body ==> u.rating == r.rating
    ensures "description" in body && body["description"].Text? ==> u.description == body["description"].s
    ensures "description" in body && body["description"].Number? ==>
      ParseInt(u.description) == Some(body["description"].n)
    ensures "description" !in body ==> u.description == r.description
    ensures u.description != "" || r.description == ""
    ensures u.updatedAt == now
  {
    assert "rating" !in PatchErrors(body) && "description" !in PatchErrors(body);
    r.(rating := if "rating" in body then RatingValue(body["rating"]).value else r.rating,
       description := if "description" in body then DescriptionValue(body["description"]).value else r.description,
       updatedAt := now)
  }

  /** Rewriting a review in place without touching its pair keeps the pairs unique. */
  lemma PatchKeepsPairsUnique(reviews: ReviewTable, id: nat, r: Review)
    requires UniqueReviewPairs(reviews) && id in reviews
    requires r.reviewer == reviews[id].reviewer && r.businessUser == reviews[id].businessUser
    ensures UniqueReviewPairs(reviews[id := r])
  {
    var m := reviews[id := r];
    forall j, k | j in m && k in m && j != k
      ensures m[j].reviewer != m[k].reviewer || m[j].businessUser != m[k].businessUser
    {
      assert reviews[j].reviewer != reviews[k].reviewer || reviews[j].businessUser != reviews[k].businessUser;
    }
  }

  /** Does the review pass the `business_user_id` and `reviewer_id` filters? */
  predicate Matches(r: Review, business: Param, reviewer: Param) {
    && (business.Parsed? ==> r.businessUser == business.n)
    && (reviewer.Parsed? ==> r.reviewer == reviewer.n)
  }

  /** ReviewViewSet.get_queryset. A non-integer id fails in the lookup (500). */
  function MatchingReviews(reviews: ReviewTable, businessUserId: Option<string>, reviewerId: Option<string>): (r: Result<set<nat>>)
    ensures r.Err? <==> ReadParam(businessUserId).Malformed? || ReadParam(reviewerId).Malformed?
    ensures r.Err? ==> r.error == ServerError
    ensures r.Ok? ==> forall k :: k in r.value <==>
      k in reviews && Matches(reviews[k], ReadParam(businessUserId), ReadParam(reviewerId))
  {
    var b := ReadParam(businessUserId);
    var v := ReadParam(reviewerId);
    if b.Malformed? || v.Malformed? then Err(ServerError)
    else Ok(set k | k in reviews && Matches(reviews[k], b, v))
  }

  /** Without filters every review is listed; with both, the result is what
      each filter keeps on its own. */
  lemma MatchingReviewsConjunctive(reviews: ReviewTable, b: Option<string>, v: Option<string>)
    requires !ReadParam(b).Malformed? && !ReadParam(v).Malformed?
    ensures MatchingReviews(reviews, None, None) == Ok(reviews.Keys)
    ensures MatchingReviews(reviews, b, v).value
         == MatchingReviews(reviews, b, None).value * MatchingReviews(reviews, None, v).value
  {
    assert MatchingReviews(reviews, None, None).value == reviews.Keys;
  }
}

=== FILE: store.dfy ===
/** The marketplace database and its endpoints. Every table is a map from row
    id to record, with the next id the table will hand out; each endpoint is a
    method that checks the request in the order the view does and reports the
    first failure, or writes the tables and returns the result. */
module Marketplace {
  import opened Wrappers
  import opened Records
  import opened Text
  import opened Registration
  import opened OfferRules
  import opened DetailUpsert
  import opened OfferView
  import opened OrderRules
  import opened ReviewRules
  import opened ProfileRules
  import opened OfferQuery

  /** Referential integrity, fresh ids, and the uniqueness rules the tables keep. */
  ghost predicate Consistent(users: map<UserId, User>, profiles: ProfileTable, offers: OfferTable, details: Table,
                             orders: OrderTable, reviews: ReviewTable,
                             nextUser: nat, nextOffer: nat, nextDetail: nat, nextOrder: nat, nextReview: nat)
  {
    && (forall u :: u in users ==> u < nextUser)
    && profiles.Keys <= users.Keys
    && UniqueProfileEmails(profiles)
    && (forall k :: k in offers ==> k < nextOffer && offers[k].user in users)
    && IdsBelow(details, nextDetail)
    && (forall k :: k in details ==> details[k].offer in offers)
    && (forall k :: k in orders ==>
          (k < nextOrder && orders[k].customer in users && orders[k].business in users
           && orders[k].offerDetail in details && orders[k].status in ORDER_STATUSES))
    && (forall k :: k in reviews ==>
          (k < nextReview && reviews[k].reviewer in users && reviews[k].businessUser in users))
    && UniqueReviewPairs(reviews)
  }

  /** Writing detail rows that keep to existing offers, without dropping a row
      or reusing an id, keeps the tables consistent. */
  lemma DetailWritesKeepConsistent(users: map<UserId, User>, profiles: ProfileTable, offers: OfferTable,
                                   details: Table, orders: OrderTable, reviews: ReviewTable,
                                   nu: nat, no: nat, nd: nat, nor: nat, nr: nat, details': Table, nd': nat)
    requires Consistent(users, profiles, offers, details, orders, reviews, nu, no, nd, nor, nr)
    requires details.Keys <= details'.Keys && IdsBelow(details', nd')
    requires forall k :: k in details' ==> details'[k].offer in offers
    ensures Consistent(users, profiles, offers, details', orders, reviews, nu, no, nd', nor, nr)
  {
  }

  /** The serializer's bulk insert for an existing offer keeps the tables consistent. */
  lemma BulkCreateKeepsConsistent(users: map<UserId, User>, profiles: ProfileTable, offers: OfferTable,
                                  details: Table, orders: OrderTable, reviews: ReviewTable,
                                  nu: nat, no: nat, nd: nat, nor: nat, nr: nat, offerId: nat, es: seq<DetailInput>)
    requires Consistent(users, profiles, offers, details, orders, reviews, nu, no, nd, nor, nr)
    requires offerId in offers
    ensures Consistent(users, profiles, offers, BulkCreate(details, nd, offerId, es), orders, reviews,
                       nu, no, nd + |es|, nor, nr)
  {
    BulkCreateRows(details, nd, offerId, es);
    var r := BulkCreate(details, nd, offerId, es);
    forall k | k in r
      ensures r[k].offer in offers
    {
      if k !in details {
        assert r[nd + (k - nd)] == NewDetail(offerId, es[k - nd]);
      }
    }
    DetailWritesKeepConsistent(users, profiles, offers, details, orders, reviews, nu, no, nd, nor, nr,
                               BulkCreate(details, nd, offerId, es), nd + |es|);
  }

  /** The serializer's upsert for an existing offer keeps the tables consistent. */
  lemma UpsertKeepsConsistent(users: map<UserId, User>, profiles: ProfileTable, offers: OfferTable,
                              details: Table, orders: OrderTable, reviews: ReviewTable,
                              nu: nat, no: nat, nd: nat, nor: nat, nr: nat, offerId: nat, es: seq<DetailInput>,
                              details': Table, nd': nat)
    requires Consistent(users, profiles, offers, details, orders, reviews, nu, no, nd, nor, nr)
    requires offerId in offers && (details', nd') == Upsert(details, offerId, nd, details, nd, es)
    ensures Consistent(users, profiles, offers, details', orders, reviews, nu, no, nd', nor, nr)
  {
    UpsertShape(details, offerId, nd, details, nd, es);
    DetailWritesKeepConsistent(users, profiles, offers, details, orders, reviews, nu, no, nd, nor, nr, details', nd');
  }

  /** The view's loop only overwrites existing rows, so it keeps the tables consistent. */
  lemma ViewApplyKeepsConsistent(users: map<UserId, User>, profiles: ProfileTable, offers: OfferTable,
                                 details: Table, orders: OrderTable, reviews: ReviewTable,
                                 nu: nat, no: nat, nd: nat, nor: nat, nr: nat, offerId: nat, es: seq<DetailInput>)
    requires Consistent(users, profiles, offers, details, orders, reviews, nu, no, nd, nor, nr)
    ensures Consistent(users, profiles, offers, ViewApply(details, offerId, nd, details, es).0, orders, reviews,
                       nu, no, nd, nor, nr)
  {
    ViewApplyCommitsPrefix(details, offerId, nd, details, nd, es);
    var k := MatchedPrefix(details, offerId, nd, es);
    UpsertShape(details, offerId, nd, details, nd, es[..k]);
    DetailWritesKeepConsistent(users, profiles, offers, details, orders, reviews, nu, no, nd, nor, nr,
                               ViewApply(details, offerId, nd, details, es).0, nd);
  }

  /** The ids of the offers a user created. */
  function OffersOf(offers: OfferTable, u: UserId): (r: set<nat>)
    ensures forall k :: k in r <==> k in offers && offers[k].user == u
  {
    set k | k in offers && offers[k].user == u
  }

  /** The offers left once their creator is deleted (on_delete=CASCADE). */
  function OffersKept(offers: OfferTable, u: UserId): (r: OfferTable)
    ensures forall k :: k in r <==> k in offers && offers[k].user != u
    ensures forall k :: k in r ==> r[k] == offers[k]
  {
    map k | k in offers && offers[k].user != u :: offers[k]
  }

  /** The details left once the offers in `gone` are deleted (on_delete=CASCADE). */
  function DetailsKept(details: Table, gone: set<nat>): (r: Table)
    ensures forall k :: k in r <==> k in details && details[k].offer !in gone
    ensures forall k :: k in r ==> r[k] == details[k]
  {
    map k | k in details && details[k].offer !in gone :: details[k]
  }

  /** The orders left once their tier, customer or business user is deleted. */
  function OrdersKept(orders: OrderTable, kept: Table, gone: set<UserId>): (r: OrderTable)
    ensures forall k :: k in r <==>
      (k in orders && orders[k].offerDetail in kept && orders[k].customer !in gone && orders[k].business !in gone)
    ensures forall k :: k in r ==> r[k] == orders[k]
  {
    map k | k in orders && orders[k].offerDetail in kept
                        && orders[k].customer !in gone && orders[k].business !in gone :: orders[k]
  }

  /** The reviews left once their reviewer or reviewed business user is deleted. */
  function ReviewsKept(reviews: ReviewTable, gone: set<UserId>): (r: ReviewTable)
    ensures forall k :: k in r <==> k in reviews && reviews[k].reviewer !in gone && reviews[k].businessUser !in gone
    ensures forall k :: k in r ==> r[k] == reviews[k]
  {
    map k | k in reviews && reviews[k].reviewer !in gone && reviews[k].businessUser !in gone :: reviews[k]
  }

  /** Deleting a user and everything that cascades from it keeps the tables consistent. */
  lemma DeleteKeepsConsistent(users: map<UserId, User>, profiles: ProfileTable, offers: OfferTable,
                              details: Table, orders: OrderTable, reviews: ReviewTable,
                              nu: nat, no: nat, nd: nat, nor: nat, nr: nat, u: UserId)
    requires Consistent(users, profiles, offers, details, orders, reviews, nu, no, nd, nor, nr)
    ensures var details' := DetailsKept(details, OffersOf(offers, u));
      Consistent(users - {u}, profiles - {u}, OffersKept(offers, u), details',
                 OrdersKept(orders, details', {u}), ReviewsKept(reviews, {u}), nu, no, nd, nor, nr)
  {
    var profiles' := profiles - {u};
    var offers' := OffersKept(offers, u);
    var details' := DetailsKept(details, OffersOf(offers, u));
    var reviews' := ReviewsKept(reviews, {u});
    assert UniqueProfileEmails(profiles') by {
      forall a, b | a in profiles' && b in profiles' && a != b && profiles'[a].email.Some?
        ensures profiles'[a].email != profiles'[b].email
      {
        assert profiles'[a] == profiles[a] && profiles'[b] == profiles[b];
      }
    }
    assert UniqueReviewPairs(reviews') by {
      forall j, k | j in reviews' && k in reviews' && j != k
        ensures reviews'[j].reviewer != reviews'[k].reviewer || reviews'[j].businessUser != reviews'[k].businessUser
      {
        assert reviews'[j] == reviews[j] && reviews'[k] == reviews[k];
      }
    }
    assert forall k :: k in details' ==> details'[k].offer in offers' by {
      forall k | k in details' ensures details'[k].offer in offers' {
        assert details[k].offer in offers && details[k].offer !in OffersOf(offers, u);
      }
    }
  }

  class Store {
    var users: map<UserId, User>
    var profiles: ProfileTable
    var offers: OfferTable
    var details: Table
    var orders: OrderTable
    var reviews: ReviewTable
    var nextUser: nat
    var nextOffer: nat
    var nextDetail: nat
    var nextOrder: nat
    var nextReview: nat

    /** Referential integrity, fresh ids, and the uniqueness rules the tables keep. */
    ghost predicate Valid()
      reads this
    {
      Consistent(users, profiles, offers, details, orders, reviews, nextUser, nextOffer, nextDetail, nextOrder, nextReview)
    }

    constructor ()
      ensures Valid()
      ensures users == map[] && profiles == map[] && offers == map[] && details == map[]
      ensures orders == map[] && reviews == map[]
    {
      users, profiles, offers, details, orders, reviews := map[], map[], map[], map[], map[], map[];
      nextUser, nextOffer, nextDetail, nextOrder, nextReview := 0, 0, 0, 0, 0;
    }

    /** The token layer only authenticates users that exist. */
    predicate Known(c: Caller)
      reads this
    {
      c.Authenticated? ==> c.id in users
    }

    /** `getattr(request.user, "profile", None)`. */
    function ProfileOf(c: Caller): (p: Option<Profile>)
      reads this
      ensures p.Some? <==> c.Authenticated? && c.id in profiles
      ensures p.Some? ==> p.value == profiles[c.id]
    {
      if c.Authenticated? && c.id in profiles then Some(profiles[c.id]) else None
    }

    predicate IsBusiness(c: Caller)
      reads this
    {
      ProfileOf(c).Some? && ProfileOf(c).value.kind == Business
    }

    predicate IsStaff(c: Caller)
      reads this
    {
      c.Authenticated? && c.id in users && users[c.id].isStaff
    }

    // ================================================================ offers

    /** OfferViewset.perform_create's checks. */
    function CreateGate(c: Caller): (r: Outcome)
      reads this
      ensures c.Anonymous? ==> r == Fail(NotAuthenticated)
      ensures c.Authenticated? ==> (r == Pass <==> IsBusiness(c))
      ensures r.Fail? && c.Authenticated? ==> r.error == PermissionDenied
    {
      if c.Anonymous? then Fail(NotAuthenticated)
      else if !IsBusiness(c) then Fail(PermissionDenied)
      else Pass
    }

    /** OfferViewset.update's checks, in order: logged in, offer exists, owner, business profile. */
    function EditGate(c: Caller, offerId: nat): (r: Outcome)
      reads this
      ensures c.Anonymous? ==> r == Fail(NotAuthenticated)
      ensures c.Authenticated? && offerId !in offers ==> r == Fail(NotFound)
      ensures c.Authenticated? && offerId in offers && offers[offerId].user != c.id ==> r == Fail(PermissionDenied)
      ensures r == Pass <==> c.Authenticated? && offerId in offers && offers[offerId].user == c.id && IsBusiness(c)
      ensures r.Fail? ==> r.error == NotAuthenticated || r.error == NotFound || r.error == PermissionDenied
    {
      if c.Anonymous? then Fail(NotAuthenticated)
      else if offerId !in offers then Fail(NotFound)
      else if offers[offerId].user != c.id then Fail(PermissionDenied)
      else if !IsBusiness(c) then Fail(PermissionDenied)
      else Pass
    }

    /** OfferViewset.destroy's checks, in order: logged in, not a customer, offer
        exists. Who owns the offer is never asked. */
    function DestroyGate(c: Caller, offerId: nat): (r: Outcome)
      reads this
      ensures c.Anonymous? ==> r == Fail(NotAuthenticated)
      ensures c.Authenticated? && !IsBusiness(c) ==> r == Fail(PermissionDenied)
      ensures r == Pass <==> IsBusiness(c) && offerId in offers
      ensures IsBusiness(c) && offerId !in offers ==> r == Fail(NotFound)
    {
      if c.Anonymous? then Fail(NotAuthenticated)
      else if ProfileOf(c).None? || ProfileOf(c).value.kind == Customer then Fail(PermissionDenied)
      else if offerId !in offers then Fail(NotFound)
      else Pass
    }

    /** POST of an offer: the serializer validates first (the view allows anyone
        in), then perform_create checks the caller, then the offer row is
        inserted and one detail row per submitted entry is bulk-inserted. An
        explicit `details: null` passes validation but cannot be iterated: the
        offer row is already saved when the request fails. */
    method CreateOffer(c: Caller, o: OfferInput, submitted: Field<Option<seq<DetailInput>>>, now: int)
      returns (res: Result<nat>)
      requires Valid() && Known(c)
      modifies this
      ensures Valid()
      ensures users == old(users) && profiles == old(profiles) && orders == old(orders) && reviews == old(reviews)
      ensures OfferFieldErrors(o) != {} ==>
        res == Err(Invalid(OfferFieldErrors(o))) && offers == old(offers) && details == old(details)
      ensures OfferFieldErrors(o) == {} && ValidateDetails(Post, submitted.Or(None)).Fail? ==>
        res == Err(ValidateDetails(Post, submitted.Or(None)).error) && offers == old(offers) && details == old(details)
      ensures OfferFieldErrors(o) == {} && ValidateDetails(Post, submitted.Or(None)).Pass? && old(CreateGate(c)).Fail? ==>
        res == Err(old(CreateGate(c)).error) && offers == old(offers) && details == old(details)
      ensures res.Ok? <==>
        OfferFieldErrors(o) == {} && ValidateDetails(Post, submitted.Or(None)).Pass? && old(CreateGate(c)).Pass?
        && submitted != Given(None)
      ensures OfferFieldErrors(o) == {} && ValidateDetails(Post, submitted.Or(None)).Pass? && old(CreateGate(c)).Pass? ==>
        && c.Authenticated?
        && offers == old(offers)[old(nextOffer) := NewOffer(c.id, o, now)]
        && (submitted == Given(None) ==> res == Err(ServerError) && details == old(details))
        && (submitted != Given(None) ==>
              res == Ok(old(nextOffer))
              && details == BulkCreate(old(details), old(nextDetail), old(nextOffer), Entries(submitted.Or(None)))
              && nextDetail == old(nextDetail) + |Entries(submitted.Or(None))|)
    {
      var errs := OfferFieldErrors(o);
      if errs != {} {
        return Err(Invalid(errs));
      }
      var check := ValidateDetails(Post, submitted.Or(None));
      if check.Fail? {
        return Err(check.error);
      }
      var gate := CreateGate(c);
      if gate.Fail? {
        return Err(gate.error);
      }
      var id := nextOffer;
      offers := offers[id := NewOffer(c.id, o, now)];
      nextOffer := nextOffer + 1;
      if submitted == Given(None) {
        return Err(ServerError);
      }
      InsertDetails(id, Entries(submitted.Or(None)));
      return Ok(id);
    }

    /** OfferSerializer.create's `bulk_create`: one new row per entry, in order. */
    method InsertDetails(offerId: nat, es: seq<DetailInput>)
      requires Valid() && offerId in offers
      modifies this
      ensures Valid()
      ensures details == BulkCreate(old(details), old(nextDetail), offerId, es)
      ensures nextDetail == old(nextDetail) + |es|
      ensures users == old(users) && profiles == old(profiles) && offers == old(offers)
      ensures orders == old(orders) && reviews == old(reviews)
      ensures nextUser == old(nextUser) && nextOffer == old(nextOffer) && nextOrder == old(nextOrder) && nextReview == old(nextReview)
    {
      var d, n := CreateRows(details, nextDetail, offerId, es);
      BulkCreateKeepsConsistent(users, profiles, offers, details, orders, reviews,
                                nextUser, nextOffer, nextDetail, nextOrder, nextReview, offerId, es);
      details, nextDetail := d, n;
    }

    /** OfferSerializer.update's loop over the submitted entries: the index of
        the offer's rows by tier is built once, then each entry overwrites the
        row of its tier or creates a new row. */
    method UpsertDetails(offerId: nat, es: seq<DetailInput>)
      requires Valid() && offerId in offers
      modifies this
      ensures Valid()
      ensures (details, nextDetail) == Upsert(old(details), offerId, old(nextDetail), old(details), old(nextDetail), es)
      ensures users == old(users) && profiles == old(profiles) && offers == old(offers)
      ensures orders == old(orders) && reviews == old(reviews)
      ensures nextUser == old(nextUser) && nextOffer == old(nextOffer) && nextOrder == old(nextOrder) && nextReview == old(nextReview)
    {
      var d, n := UpsertRows(details, offerId, nextDetail, es);
      UpsertKeepsConsistent(users, profiles, offers, details, orders, reviews,
                            nextUser, nextOffer, nextDetail, nextOrder, nextReview, offerId, es, d, n);
      details, nextDetail := d, n;
    }

    /** OfferViewset.update's loop: the index of the offer's rows by tier is
        built once; each entry is written onto the row of its tier and saved,
        until an entry names a tier the offer lacks. */
    method WriteMatchedDetails(offerId: nat, es: seq<DetailInput>) returns (matched: bool)
      requires Valid()
      modifies this
      ensures Valid()
      ensures (details, matched) == ViewApply(old(details), offerId, old(nextDetail), old(details), es)
      ensures es == [] ==> matched && details == old(details)
      ensures users == old(users) && profiles == old(profiles) && offers == old(offers)
      ensures orders == old(orders) && reviews == old(reviews) && nextDetail == old(nextDetail)
      ensures nextUser == old(nextUser) && nextOffer == old(nextOffer) && nextOrder == old(nextOrder) && nextReview == old(nextReview)
    {
      ViewApplyKeepsConsistent(users, profiles, offers, details, orders, reviews,
                               nextUser, nextOffer, nextDetail, nextOrder, nextReview, offerId, es);
      var d;
      d, matched := ViewRows(details, offerId, nextDetail, es);
      details := d;
    }

    /** PUT and PATCH of an offer (OfferViewset.update). After the checks the
        view writes each submitted entry onto the row of its tier, one at a
        time, and raises at the first tier the offer lacks; only then does the
        serializer validate, and on success update the offer and run its own
        upsert, which finds nothing left to write. Whatever the outcome after
        the checks, the table holds exactly the view loop's writes. */
    method UpdateOffer(c: Caller, offerId: nat, verb: Method, o: OfferInput,
                       submitted: Field<Option<seq<DetailInput>>>, now: int)
      returns (res: Result<Offer>)
      requires Valid() && Known(c)
      requires verb == Put || verb == Patch
      modifies this
      ensures Valid()
      ensures users == old(users) && profiles == old(profiles) && orders == old(orders) && reviews == old(reviews)
      ensures nextDetail == old(nextDetail) && nextOffer == old(nextOffer)
      ensures old(EditGate(c, offerId)).Fail? ==>
        res == Err(old(EditGate(c, offerId)).error) && offers == old(offers) && details == old(details)
      ensures Entries(submitted.Or(None)) == [] ==> details == old(details)
      ensures old(EditGate(c, offerId)).Pass? ==>
        var view := ViewApply(old(details), offerId, old(nextDetail), old(details), Entries(submitted.Or(None)));
        && details == view.0
        && (!view.1 ==> res == Err(Invalid({"detail"})) && offers == old(offers))
        && (view.1 && OfferFieldErrors(o) != {} ==> res == Err(Invalid(OfferFieldErrors(o))) && offers == old(offers))
        && (view.1 && OfferFieldErrors(o) == {} && ValidateDetails(verb, submitted.Or(None)).Fail? ==>
              res == Err(ValidateDetails(verb, submitted.Or(None)).error) && offers == old(offers))
        && (res.Ok? <==> view.1 && OfferFieldErrors(o) == {} && ValidateDetails(verb, submitted.Or(None)).Pass?)
        && (res.Ok? ==> offers == old(offers)[offerId := ApplyOfferInput(old(offers)[offerId], o, now)]
                        && res.value == offers[offerId])
    {
      var gate := EditGate(c, offerId);
      if gate.Fail? {
        return Err(gate.error);
      }
      var es := Entries(submitted.Or(None));
      ghost var snap := details;
      var matched := WriteMatchedDetails(offerId, es);
      if !matched {
        return Err(Invalid({"detail"}));
      }
      res := SaveOffer(offerId, verb, o, submitted, now, snap);
    }

    /** The rest of OfferViewset.update once the view loop has written every
        entry: the serializer validates, then updates the offer's columns and
        runs its upsert, which finds every row already written. */
    method SaveOffer(offerId: nat, verb: Method, o: OfferInput, submitted: Field<Option<seq<DetailInput>>>,
                     now: int, ghost snap: Table)
      returns (res: Result<Offer>)
      requires Valid() && offerId in offers && IdsBelow(snap, nextDetail)
      requires ViewApply(snap, offerId, nextDetail, snap, Entries(submitted.Or(None))) == (details, true)
      modifies this
      ensures Valid()
      ensures users == old(users) && profiles == old(profiles) && orders == old(orders) && reviews == old(reviews)
      ensures details == old(details) && nextDetail == old(nextDetail) && nextOffer == old(nextOffer)
      ensures OfferFieldErrors(o) != {} ==> res == Err(Invalid(OfferFieldErrors(o))) && offers == old(offers)
      ensures OfferFieldErrors(o) == {} && ValidateDetails(verb, submitted.Or(None)).Fail? ==>
        res == Err(ValidateDetails(verb, submitted.Or(None)).error) && offers == old(offers)
      ensures res.Ok? <==> OfferFieldErrors(o) == {} && ValidateDetails(verb, submitted.Or(None)).Pass?
      ensures res.Ok? ==>
        offers == old(offers)[offerId := ApplyOfferInput(old(offers)[offerId], o, now)] && res.value == offers[offerId]
    {
      var errs := OfferFieldErrors(o);
      if errs != {} {
        return Err(Invalid(errs));
      }
      var check := ValidateDetails(verb, submitted.Or(None));
      if check.Fail? {
        return Err(check.error);
      }
      var es := Entries(submitted.Or(None));
      var updated := ApplyOfferInput(offers[offerId], o, now);
      offers := offers[offerId := updated];
      SecondPassIsNoOp(snap, offerId, nextDetail, nextDetail, es);
      UpsertDetails(offerId, es);
      return Ok(updated);
    }

    /** DELETE of an offer: the offer goes, and with it its detail rows and
        every order placed on one of them. */
    method DestroyOffer(c: Caller, offerId: nat) returns (res: Outcome)
      requires Valid() && Known(c)
      modifies this
      ensures Valid()
      ensures users == old(users) && profiles == old(profiles) && reviews == old(reviews)
      ensures res == old(DestroyGate(c, offerId))
      ensures nextUser == old(nextUser) && nextOffer == old(nextOffer) && nextDetail == old(nextDetail)
      ensures nextOrder == old(nextOrder) && nextReview == old(nextReview)
      ensures res.Fail? ==> offers == old(offers) && details == old(details) && orders == old(orders)
      ensures res.Pass? ==>
        && offers == old(offers) - {offerId}
        && details == DetailsKept(old(details), {offerId})
        && orders == OrdersKept(old(orders), details, {})
    {
      res := DestroyGate(c, offerId);
      if res.Fail? {
        return;
      }
      offers := offers - {offerId};
      details := DetailsKept(details, {offerId});
      orders := OrdersKept(orders, details, {});
    }

    /** GET of one offer: logged-in callers only; the detail rows are given as links. */
    function RetrieveOffer(c: Caller, offerId: nat): (r: Result<OfferRepr>)
      requires Valid()
      reads this
      ensures c.Anonymous? ==> r == Err(NotAuthenticated)
      ensures c.Authenticated? ==> (r.Ok? <==> offerId in offers)
      ensures c.Authenticated? && offerId !in offers ==> r == Err(NotFound)
      ensures r.Ok? ==> r.value.id == offerId && r.value.details.Links? && r.value.userDetails.None?
      ensures r.Ok? ==> r.value.minPrice == MinPrice(details, offerId, nextDetail)
    {
      if c.Anonymous? then Err(NotAuthenticated)
      else if offerId !in offers then Err(NotFound)
      else
        var x := offers[offerId];
        Ok(Represent(offerId, x, users[x.user], details, nextDetail, Context(Some(Get), Some("retrieve"))))
    }

    /** OfferDetailsViewSet.retrieve: logged in, then an id of digits only, then a row with that id. */
    function RetrieveDetail(c: Caller, pk: Option<string>): (r: Result<DetailEntry>)
      reads this
      ensures c.Anonymous? ==> r == Err(NotAuthenticated)
      ensures c.Authenticated? && (pk.None? || !IsAllDigits(pk.value)) ==> r == Err(Invalid({"detail"}))
      ensures c.Authenticated? && pk.Some? && IsAllDigits(pk.value) ==>
        (r.Ok? <==> DigitsValue(pk.value) in details)
      ensures r.Ok? ==> pk.Some? && IsAllDigits(pk.value) && r.value.id == DigitsValue(pk.value)
                        && r.value == EntryOf(r.value.id, details[r.value.id])
      ensures r.Err? && c.Authenticated? && pk.Some? && IsAllDigits(pk.value) ==> r == Err(NotFound)
    {
      if c.Anonymous? then Err(NotAuthenticated)
      else if pk.None? || !IsAllDigits(pk.value) then Err(Invalid({"detail"}))
      else
        var id := DigitsValue(pk.value);
        if id in details then Ok(EntryOf(id, details[id])) else Err(NotFound)
    }

    // ================================================================ users and profiles

    /** RegistrationView: the serializer's checks, then the user row, then the
        profile row. The profile email is unique on its own table, so an email
        some profile already holds makes the second insert fail after the user
        row has been written. */
    method Register(r: RegistrationInput, now: int) returns (res: Result<UserId>)
      requires Valid()
      modifies this
      ensures Valid()
      ensures offers == old(offers) && details == old(details) && orders == old(orders) && reviews == old(reviews)
      ensures ValidateRegistration(old(users), r).Err? ==>
        res == Err(ValidateRegistration(old(users), r).error) && users == old(users) && profiles == old(profiles)
      ensures ValidateRegistration(old(users), r).Ok? ==>
        && users == old(users)[old(nextUser) := User(r.username, r.email, "", "", false)]
        && (EmailInUse(old(profiles), r.email, None) ==> res == Err(ServerError) && profiles == old(profiles))
        && (!EmailInUse(old(profiles), r.email, None) ==>
              res == Ok(old(nextUser))
              && profiles == old(profiles)[old(nextUser) :=
                   NewProfile(ValidateRegistration(old(users), r).value, r.username, Some(r.email), now)])
    {
      var v := ValidateRegistration(users, r);
      if v.Err? {
        return Err(v.error);
      }
      res := AddAccount(r.username, r.email, v.value, now);
    }

    /** The two rows `create` writes for a validated registration: the user row
        always, the profile row only when no profile holds the email yet (the
        unique column otherwise fails the insert, after the user row exists). */
    method AddAccount(username: string, email: string, kind: UserType, now: int) returns (res: Result<UserId>)
      requires Valid()
      modifies this
      ensures Valid()
      ensures offers == old(offers) && details == old(details) && orders == old(orders) && reviews == old(reviews)
      ensures users == old(users)[old(nextUser) := User(username, email, "", "", false)]
      ensures EmailInUse(old(profiles), email, None) ==> res == Err(ServerError) && profiles == old(profiles)
      ensures !EmailInUse(old(profiles), email, None) ==>
        res == Ok(old(nextUser)) && profiles == old(profiles)[old(nextUser) := NewProfile(kind, username, Some(email), now)]
    {
      var id := nextUser;
      users := users[id := User(username, email, "", "", false)];
      nextUser := nextUser + 1;
      if EmailInUse(profiles, email, None) {
        return Err(ServerError);
      }
      var p := NewProfile(kind, username, Some(email), now);
      AddKeepsEmailsUnique(profiles, id, p);
      profiles := profiles[id := p];
      return Ok(id);
    }

    /** GET of a profile by its user's id: any logged-in caller may read any profile. */
    function RetrieveProfile(c: Caller, owner: UserId): (r: Result<Profile>)
      reads this
      ensures c.Anonymous? ==> r == Err(NotAuthenticated)
      ensures c.Authenticated? ==> (r.Ok? <==> owner in profiles)
      ensures c.Authenticated? && owner !in profiles ==> r == Err(NotFound)
      ensures r.Ok? ==> r.value == profiles[owner]
    {
      if c.Anonymous? then Err(NotAuthenticated)
      else if owner !in profiles then Err(NotFound)
      else Ok(profiles[owner])
    }

    /** PATCH of a profile: logged in, the profile exists, the caller owns it or
        is staff, the fields validate; then the user's names and the profile's
        columns are written. A blank email another profile holds passes the
        validation and fails at the profile save (500), after the names are
        written. */
    method UpdateProfile(c: Caller, owner: UserId, p: ProfilePatch) returns (res: Result<Profile>)
      requires Valid() && Known(c)
      modifies this
      ensures Valid()
      ensures offers == old(offers) && details == old(details) && orders == old(orders) && reviews == old(reviews)
      ensures c.Anonymous? ==> res == Err(NotAuthenticated)
      ensures c.Authenticated? && owner !in old(profiles) ==> res == Err(NotFound)
      ensures c.Authenticated? && owner in old(profiles) && !CanEditProfile(Patch, c.id, owner, old(IsStaff(c))) ==>
        res == Err(PermissionDenied)
      ensures c.Authenticated? && owner in old(profiles) && CanEditProfile(Patch, c.id, owner, old(IsStaff(c)))
              && ProfileFieldErrors(old(profiles), owner, p) != {} ==>
        res == Err(Invalid(ProfileFieldErrors(old(profiles), owner, p)))
      ensures res.Err? && res.error != ServerError ==> users == old(users) && profiles == old(profiles)
      ensures res == Err(ServerError) <==>
        (&& c.Authenticated? && owner in old(profiles)
         && CanEditProfile(Patch, c.id, owner, old(IsStaff(c)))
         && ProfileFieldErrors(old(profiles), owner, p) == {}
         && BlankEmailClash(old(profiles), owner, p))
      ensures res == Err(ServerError) ==>
        users == old(users)[owner := ApplyNames(old(users)[owner], p)] && profiles == old(profiles)
      ensures res.Ok? <==>
        (&& c.Authenticated? && owner in old(profiles)
         && CanEditProfile(Patch, c.id, owner, old(IsStaff(c)))
         && ProfileFieldErrors(old(profiles), owner, p) == {}
         && !BlankEmailClash(old(profiles), owner, p))
      ensures res.Ok? ==>
        && ParseUserType(p.kind).Some?
        && users == old(users)[owner := ApplyNames(old(users)[owner], p)]
        && profiles == old(profiles)[owner := ApplyProfilePatch(old(profiles)[owner], p)]
        && res.value == profiles[owner]
    {
      if c.Anonymous? {
        return Err(NotAuthenticated);
      }
      if owner !in profiles {
        return Err(NotFound);
      }
      if !CanEditProfile(Patch, c.id, owner, IsStaff(c)) {
        return Err(PermissionDenied);
      }
      var errs := ProfileFieldErrors(profiles, owner, p);
      if errs != {} {
        return Err(Invalid(errs));
      }
      res := SaveProfileEdit(owner, p);
    }

    /** ProfileSerializer.update for a patch that passed validation: the names
        go to the user row first; then everything else goes to the profile row,
        unless the unique email column refuses a blank email another profile
        holds, which is a 500 that leaves the names written. */
    method SaveProfileEdit(owner: UserId, p: ProfilePatch) returns (res: Result<Profile>)
      requires Valid() && owner in profiles && ProfileFieldErrors(profiles, owner, p) == {}
      modifies this
      ensures Valid()
      ensures offers == old(offers) && details == old(details) && orders == old(orders) && reviews == old(reviews)
      ensures ParseUserType(p.kind).Some?
      ensures users == old(users)[owner := ApplyNames(old(users)[owner], p)]
      ensures res.Err? <==> BlankEmailClash(old(profiles), owner, p)
      ensures res.Err? ==> res.error == ServerError && profiles == old(profiles)
      ensures res.Ok? ==>
        && profiles == old(profiles)[owner := ApplyProfilePatch(old(profiles)[owner], p)]
        && res.value == profiles[owner]
    {
      assert ParseUserType(p.kind).Some? by {
        if p.kind.Given? { assert "type" !in ProfileFieldErrors(profiles, owner, p); }
      }
      users := users[owner := ApplyNames(users[owner], p)];
      if BlankEmailClash(profiles, owner, p) {
        return Err(ServerError);
      }
      var updated := ApplyProfilePatch(profiles[owner], p);
      EditKeepsEmailsUnique(profiles, owner, p);
      profiles := profiles[owner := updated];
      return Ok(updated);
    }

    /** BusinessUserListView and CustomerUserListView: logged-in callers only. */
    function ListProfiles(c: Caller, t: UserType): (r: Result<set<UserId>>)
      reads this
      ensures c.Anonymous? <==> r == Err(NotAuthenticated)
      ensures r.Ok? ==> forall u :: u in r.value <==> u in profiles && profiles[u].kind == t
    {
      if c.Anonymous? then Err(NotAuthenticated) else Ok(ProfilesOfType(profiles, t))
    }

    // ================================================================ orders

    /** POST of an order. The permission class admits authenticated users with
        a customer profile, or with any profile and staff rights; then the body
        must hold an integer `offer_detail_id`; then the save runs inside a
        catch-all, so an unknown tier or a NULL snapshot column is a 500. */
    method CreateOrder(c: Caller, offerDetailId: Option<int>, now: int) returns (res: Result<CreatedOrder>)
      requires Valid() && Known(c)
      modifies this
      ensures Valid()
      ensures users == old(users) && profiles == old(profiles) && offers == old(offers)
      ensures details == old(details) && reviews == old(reviews)
      ensures !old(CustomerOrAdmin(c, ProfileOf(c), IsStaff(c))) ==> res == Err(Denied(c))
      ensures old(CustomerOrAdmin(c, ProfileOf(c), IsStaff(c))) && offerDetailId.None? ==>
        res == Err(Invalid({"offer_detail_id"}))
      ensures old(CustomerOrAdmin(c, ProfileOf(c), IsStaff(c))) && offerDetailId.Some?
              && (offerDetailId.value < 0 || offerDetailId.value as nat !in old(details)) ==>
        res == Err(ServerError)
      ensures res.Err? ==> orders == old(orders)
      ensures res.Ok? <==>
        (&& old(CustomerOrAdmin(c, ProfileOf(c), IsStaff(c))) && offerDetailId.Some? && 0 <= offerDetailId.value
         && offerDetailId.value as nat in old(details)
         && old(details)[offerDetailId.value as nat].deliveryTime.Some?
         && old(details)[offerDetailId.value as nat].offerType.Some?)
      ensures res.Ok? ==>
        && c.Authenticated? && offerDetailId.Some? && 0 <= offerDetailId.value
        && offerDetailId.value as nat in old(details)
        && var d := old(details)[offerDetailId.value as nat];
           && d.offer in old(offers)
           && PlaceOrder(c.id, offerDetailId.value as nat, old(offers)[d.offer], d, now).Ok?
           && orders == old(orders)[old(nextOrder) := PlaceOrder(c.id, offerDetailId.value as nat, old(offers)[d.offer], d, now).value]
           && res.value == RepresentCreated(old(nextOrder), orders[old(nextOrder)])
    {
      if !CustomerOrAdmin(c, ProfileOf(c), IsStaff(c)) {
        return Err(Denied(c));
      }
      if offerDetailId.None? {
        return Err(Invalid({"offer_detail_id"}));
      }
      var n := offerDetailId.value;
      if n < 0 || n as nat !in details {
        return Err(ServerError);
      }
      var d := details[n as nat];
      var placed := PlaceOrder(c.id, n as nat, offers[d.offer], d, now);
      if placed.Err? {
        return Err(placed.error);
      }
      var id := nextOrder;
      orders := orders[id := placed.value];
      nextOrder := nextOrder + 1;
      return Ok(RepresentCreated(id, placed.value));
    }

    /** PATCH of an order's status: logged in, the order is one the caller is a
        party to, the caller has a business profile, the status is one of the
        three; only `status` and `updated_at` change. */
    method UpdateOrderStatus(c: Caller, orderId: nat, status: Field<string>, now: int) returns (res: Result<Order>)
      requires Valid() && Known(c)
      modifies this
      ensures Valid()
      ensures users == old(users) && profiles == old(profiles) && offers == old(offers)
      ensures details == old(details) && reviews == old(reviews)
      ensures c.Anonymous? ==> res == Err(NotAuthenticated)
      ensures c.Authenticated? && orderId !in VisibleOrders(old(orders), c.id) ==> res == Err(NotFound)
      ensures c.Authenticated? && orderId in VisibleOrders(old(orders), c.id) && !old(IsBusiness(c)) ==>
        res == Err(PermissionDenied)
      ensures c.Authenticated? && orderId in VisibleOrders(old(orders), c.id) && old(IsBusiness(c))
              && status.Given? && ValidateStatus(status.value).Err? ==>
        res == Err(Invalid({"status"}))
      ensures res.Err? ==> orders == old(orders)
      ensures res.Ok? <==>
        (&& c.Authenticated? && orderId in VisibleOrders(old(orders), c.id) && old(IsBusiness(c))
         && (status.Given? ==> ValidateStatus(status.value).Ok?))
      ensures res.Ok? ==>
        orders == old(orders)[orderId := ApplyStatus(old(orders)[orderId], status, now)] && res.value == orders[orderId]
    {
      if c.Anonymous? {
        return Err(NotAuthenticated);
      }
      if orderId !in VisibleOrders(orders, c.id) {
        return Err(NotFound);
      }
      if !IsBusiness(c) {
        return Err(PermissionDenied);
      }
      if status.Given? && ValidateStatus(status.value).Err? {
        return Err(Invalid({"status"}));
      }
      var updated := ApplyStatus(orders[orderId], status, now);
      orders := orders[orderId := updated];
      return Ok(updated);
    }

    /** GET of the order list: the orders the caller is a party to. */
    function ListOrders(c: Caller): (r: Result<set<nat>>)
      reads this
      ensures c.Anonymous? <==> r == Err(NotAuthenticated)
      ensures r.Ok? ==> forall k :: k in r.value <==> k in orders && IsParty(orders[k], c.id)
    {
      if c.Anonymous? then Err(NotAuthenticated) else Ok(VisibleOrders(orders, c.id))
    }

    /** OrderCountView and CompletedOrderCountView: 404 for an unknown user, else
        the number of that business user's orders with the status. */
    function CountOrders(c: Caller, businessId: nat, status: string): (r: Result<nat>)
      reads this
      ensures c.Anonymous? ==> r == Err(NotAuthenticated)
      ensures c.Authenticated? ==> (r.Ok? <==> businessId in users)
      ensures c.Authenticated? && businessId !in users ==> r == Err(NotFound)
      ensures r.Ok? ==> r.value == |WithStatus(orders, businessId, status)|
      ensures r.Ok? && (forall k :: k in orders && orders[k].business == businessId ==> orders[k].status != status) ==>
        r.value == 0
    {
      if c.Anonymous? then Err(NotAuthenticated)
      else if businessId !in users then Err(NotFound)
      else Ok(CountWithStatus(orders, businessId, status))
    }

    /** The in-progress and completed counts never exceed the business user's
        order total, and with the cancelled count they make it up. */
    lemma CountsAddUp(c: Caller, businessId: nat)
      requires Valid() && c.Authenticated? && businessId in users
      ensures CountOrders(c, businessId, STATUS_IN_PROGRESS).Ok? && CountOrders(c, businessId, STATUS_COMPLETED).Ok?
      ensures CountOrders(c, businessId, STATUS_IN_PROGRESS).value + CountOrders(c, businessId, STATUS_COMPLETED).value
              + CountWithStatus(orders, businessId, STATUS_CANCELLED) == |OrdersOf(orders, businessId)|
    {
      CountsPartitionOrders(orders, businessId);
    }

    // ================================================================ reviews

    /** POST of a review. `permitted` is the verdict of the review permission
        class (its definition is not part of this model). Then the serializer
        validates the body, then a second review of the same business user by
        the same caller is refused, then the row is inserted with the caller as
        reviewer. An anonymous caller the permission class lets through cannot
        be used as a reviewer: the lookup fails with a 500. */
    method CreateReview(c: Caller, permitted: bool, r: ReviewInput, now: int) returns (res: Result<nat>)
      requires Valid() && Known(c)
      modifies this
      ensures Valid()
      ensures users == old(users) && profiles == old(profiles) && offers == old(offers)
      ensures details == old(details) && orders == old(orders)
      ensures !permitted ==> res == Err(Denied(c))
      ensures permitted && ReviewFieldErrors(old(users).Keys, r) != {} ==>
        res == Err(Invalid(ReviewFieldErrors(old(users).Keys, r)))
      ensures permitted && ReviewFieldErrors(old(users).Keys, r) == {} && c.Anonymous? ==> res == Err(ServerError)
      ensures permitted && ReviewFieldErrors(old(users).Keys, r) == {} && c.Authenticated?
              && HasReviewed(old(reviews), c.id, r.businessUser.value) ==>
        res == Err(Invalid({"detail"}))
      ensures res.Err? ==> reviews == old(reviews)
      ensures res.Ok? <==>
        (&& permitted && ReviewFieldErrors(old(users).Keys, r) == {} && c.Authenticated?
         && !HasReviewed(old(reviews), c.id, r.businessUser.value))
      ensures res.Ok? ==>
        && res.value == old(nextReview)
        && reviews == old(reviews)[res.value :=
             Review(r.businessUser.value, c.id, RatingValue(r.rating.value).value,
                    DescriptionValue(r.description.value).value, now, now)]
    {
      if !permitted {
        return Err(Denied(c));
      }
      var errs := ReviewFieldErrors(users.Keys, r);
      if errs != {} {
        return Err(Invalid(errs));
      }
      if c.Anonymous? {
        return Err(ServerError);
      }
      assert "business_user" !in errs && "rating" !in errs && "description" !in errs;
      var business := r.businessUser.value;
      if HasReviewed(reviews, c.id, business) {
        return Err(Invalid({"detail"}));
      }
      var id := nextReview;
      var review := Review(business, c.id, RatingValue(r.rating.value).value, DescriptionValue(r.description.value).value, now, now);
      AddKeepsPairsUnique(reviews, id, review);
      reviews := reviews[id := review];
      nextReview := nextReview + 1;
      return Ok(id);
    }

    /** PATCH of a review. `permitted` and `objectPermitted` are the review
        permission class's verdicts on the request and on the review. The body
        is cut down to `rating` and `description` before the serializer sees it. */
    method PartialUpdateReview(c: Caller, permitted: bool, objectPermitted: bool, reviewId: nat,
                               data: map<string, ReviewValue>, now: int) returns (res: Result<Review>)
      requires Valid()
      modifies this
      ensures Valid()
      ensures users == old(users) && profiles == old(profiles) && offers == old(offers)
      ensures details == old(details) && orders == old(orders)
      ensures !permitted ==> res == Err(Denied(c))
      ensures permitted && reviewId !in old(reviews) ==> res == Err(NotFound)
      ensures permitted && reviewId in old(reviews) && !objectPermitted ==> res == Err(Denied(c))
      ensures permitted && reviewId in old(reviews) && objectPermitted && PatchErrors(StripPatch(data)) != {} ==>
        res == Err(Invalid(PatchErrors(StripPatch(data))))
      ensures res.Err? ==> reviews == old(reviews)
      ensures res.Ok? <==> permitted && reviewId in old(reviews) && objectPermitted && PatchErrors(StripPatch(data)) == {}
      ensures res.Ok? ==>
        reviews == old(reviews)[reviewId := ApplyReviewPatch(old(reviews)[reviewId], StripPatch(data), now)]
        && res.value == reviews[reviewId]
    {
      if !permitted {
        return Err(Denied(c));
      }
      if reviewId !in reviews {
        return Err(NotFound);
      }
      if !objectPermitted {
        return Err(Denied(c));
      }
      var body := StripPatch(data);
      var errs := PatchErrors(body);
      if errs != {} {
        return Err(Invalid(errs));
      }
      var updated := ApplyReviewPatch(reviews[reviewId], body, now);
      PatchKeepsPairsUnique(reviews, reviewId, updated);
      reviews := reviews[reviewId := updated];
      return Ok(updated);
    }

    /** GET of the review list. */
    function ListReviews(c: Caller, businessUserId: Option<string>, reviewerId: Option<string>): (r: Result<set<nat>>)
      reads this
      ensures c.Anonymous? ==> r == Err(NotAuthenticated)
      ensures c.Authenticated? ==> r == MatchingReviews(reviews, businessUserId, reviewerId)
    {
      if c.Anonymous? then Err(NotAuthenticated) else MatchingReviews(reviews, businessUserId, reviewerId)
    }

    // ================================================================ cascades

    /** Deleting a user removes their profile, their offers with the offers'
        tiers, every order they are a party to or that was placed on a removed
        tier, and every review they wrote or received. */
    method DeleteUser(u: UserId)
      requires Valid() && u in users
      modifies this
      ensures Valid()
      ensures users == old(users) - {u} && profiles == old(profiles) - {u}
      ensures offers == OffersKept(old(offers), u)
      ensures details == DetailsKept(old(details), OffersOf(old(offers), u))
      ensures orders == OrdersKept(old(orders), details, {u})
      ensures reviews == ReviewsKept(old(reviews), {u})
    {
      DeleteKeepsConsistent(users, profiles, offers, details, orders, reviews,
                            nextUser, nextOffer, nextDetail, nextOrder, nextReview, u);
      var details' := DetailsKept(details, OffersOf(offers, u));
      users, profiles, offers, details := users - {u}, profiles - {u}, OffersKept(offers, u), details';
      orders, reviews := OrdersKept(orders, details', {u}), ReviewsKept(reviews, {u});
    }
  }
}

=== FILE: text.dfy ===
/** Character classes and integer parsing used by the request checks.
    Only ASCII digits and letters are recognised. */
module Text {
  import opened Wrappers

  predicate IsDigit(c: char) { '0' <= c <= '9' }
  predicate IsLower(c: char) { 'a' <= c <= 'z' }
  predicate IsUpper(c: char) { 'A' <= c <= 'Z' }

  /** `any(p(ch) for ch in s)`. */
  function AnyChar(s: string, p: char -> bool): (r: bool)
    ensures r <==> exists i :: 0 <= i < |s| && p(s[i])
  {
    if s == [] then false
    else if p(s[0]) then true
    else
      var rest := AnyChar(s[1..], p);
      assert forall i :: 0 <= i < |s| - 1 ==> s[1..][i] == s[i + 1];
      rest
  }

  /** Python's `str.isdigit()`: non-empty and made of digits only. */
  predicate IsAllDigits(s: string) {
    |s| > 0 && forall i :: 0 <= i < |s| ==> IsDigit(s[i])
  }

  function DigitValue(c: char): nat
    requires IsDigit(c)
  {
    (c as int - '0' as int) as nat
  }

  function DigitChar(d: nat): (c: char)
    requires d < 10
    ensures IsDigit(c) && DigitValue(c) == d
  {
    ('0' as int + d) as char
  }

  /** The number a string of decimal digits spells. */
  function DigitsValue(s: string): nat
    requires forall i :: 0 <= i < |s| ==> IsDigit(s[i])
  {
    if s == [] then 0 else DigitsValue(s[..|s| - 1]) * 10 + DigitValue(s[|s| - 1])
  }

  /** Decimal spelling of a natural number, without leading zeros. */
  function NatToString(n: nat): (s: string)
    ensures IsAllDigits(s)
  {
    if n < 10 then [DigitChar(n)] else NatToString(n / 10) + [DigitChar(n % 10)]
  }

  lemma {:induction false} NatToStringRoundTrip(n: nat)
    ensures DigitsValue(NatToString(n)) == n
  {
    var s := NatToString(n);
    if n < 10 {
      assert s[..|s| - 1] == [];
    } else {
      NatToStringRoundTrip(n / 10);
      assert s[..|s| - 1] == NatToString(n / 10);
    }
  }

  /** Python's `int(s)` on a query parameter: an optional sign, then decimal digits. */
  function ParseInt(s: string): (r: Option<int>)
    ensures r.Some? <==> IsAllDigits(s) || (|s| > 1 && (s[0] == '-' || s[0] == '+') && IsAllDigits(s[1..]))
    ensures IsAllDigits(s) ==> r == Some(DigitsValue(s) as int)
    ensures |s| > 1 && s[0] == '-' && IsAllDigits(s[1..]) ==> r == Some(-(DigitsValue(s[1..]) as int))
    ensures |s| > 1 && s[0] == '+' && IsAllDigits(s[1..]) ==> r == Some(DigitsValue(s[1..]) as int)
  {
    if IsAllDigits(s) then Some(DigitsValue(s) as int)
    else if |s| > 1 && s[0] == '-' && IsAllDigits(s[1..]) then Some(-(DigitsValue(s[1..]) as int))
    else if |s| > 1 && s[0] == '+' && IsAllDigits(s[1..]) then Some(DigitsValue(s[1..]) as int)
    else None
  }

  lemma ParseIntOfNatToString(n: nat)
    ensures ParseInt(NatToString(n)) == Some(n as int)
  {
    NatToStringRoundTrip(n);
  }

  /** Python's `str(n)` on an integer: a minus sign before the digits of a negative value. */
  function IntToString(n: int): (s: string)
    ensures |s| > 0
    ensures n >= 0 ==> IsAllDigits(s)
    ensures n < 0 ==> s[0] == '-' && IsAllDigits(s[1..])
  {
    if n >= 0 then NatToString(n) else "-" + NatToString(-n)
  }

  /** Reading back what `str` wrote gives the integer back. */
  lemma IntToStringRoundTrip(n: int)
    ensures ParseInt(IntToString(n)) == Some(n)
  {
    if n >= 0 {
      ParseIntOfNatToString(n);
    } else {
      var s := IntToString(n);
      assert s[1..] == NatToString(-n);
      NatToStringRoundTrip(-n);
    }
  }

  /** A query parameter read with `if param:` and then `int(param)`. */
  datatype Param = Unset | Parsed(n: int) | Malformed

  function ReadParam(p: Option<string>): (r: Param)
    ensures r.Unset? <==> p.None? || p.value == ""
    ensures r.Malformed? <==> p.Some? && p.value != "" && ParseInt(p.value).None?
    ensures r.Parsed? ==> p.Some? && ParseInt(p.value) == Some(r.n)
  {
    match p
    case None => Unset
    case Some(s) =>
      if s == "" then Unset
      else match ParseInt(s)
        case Some(n) => Parsed(n)
        case None => Malformed
  }
}

=== FILE: wrappers.dfy ===
/** Small value wrappers shared by every module of the model. */
module Wrappers {

  /** A nullable value: a database column that may hold NULL, or a missing context entry. */
  datatype Option<+T> = None | Some(value: T) {
    function GetOr(default: T): T {
      match this
      case Some(v) => v
      case None => default
    }
  }

  /** One key of a request body: either absent, or given with a value.
      `Given(None)` in a `Field<Option<T>>` is a key sent with JSON null. */
  datatype Field<+T> = Absent | Given(value: T) {
    function Or(default: T): T {
      match this
      case Given(v) => v
      case Absent => default
    }
  }

  /** A request body cut down to the given keys. */
  function Only<V>(data: map<string, V>, keys: set<string>): (r: map<string, V>)
    ensures r.Keys == data.Keys * keys
    ensures forall k :: k in r ==> r[k] == data[k]
  {
    map k | k in data && k in keys :: data[k]
  }
}
